=== FILE: README.md ===
# Article store: verified model

This project models the record store of `proyecto2.py`, a desktop catalogue of
scientific articles. Each article is identified by the FNV-1 digest of its
text. The store has one primary and two secondary structures:

- a chained hash table of 200 buckets that maps each digest to its record;
- an index by lower-cased authors;
- an index by year.

Every change rewrites a flat database file with one `|`-separated line per
record. Loading reads that file back line by line. The article texts are
copied into a directory under the name `<digest>.txt`.

The model has one module per concern:

| module | file | what it holds |
|---|---|---|
| `HashTables` | `hashtable.dfy` | the `HashTable` class: an `array` of buckets, a `count`, and the ghost map `Contents` as its abstract value |
| `Fnv` | `fnv.dfy` | the FNV-1 accumulator loop and injectivity facts about it |
| `Text` | `text.dfy` | the Python string operations the store relies on: `strip`, `split`, `join`, `lower`, string order, `str`/`int` on integers, universal newlines, and UTF-8 encoding |
| `Sorting` | `sorting.dfy` | `sorted(..., key=...)` as a stable insertion sort |
| `Articulos` | `articulo.dfy` | the `Articulo` record (the class at `proyecto2.py:71-79`, as a value), and the keys it is sorted and filed by |
| `Codec` | `codec.dfy` | the database line format, whole-file parsing and serialisation |
| `Indices` | `indices.dfy` | the secondary indexes as maps from key to list of records; the invariant tying them to the table; the load step |
| `Gestor` | `gestor.dfy` | the `GestorArticulos` class: the operations of the store |

The store's state is five fields of the `GestorArticulos` class:

- `tabla`, the hash table;
- `indiceAutores` and `indiceAnios`, the two indexes;
- `baseDatos`, the text of the database file, or `None` while there is no file;
- `cuerpos`, the article directory, as a map from file name to text.

`GestorArticulos.Valid()` holds before and after every operation. It says
three things:

- the table is well formed;
- every record is stored under its own digest;
- each index files every record of the table exactly once, under that
  record's key, and files nothing else.

## Model

| member | source | states |
|---|---|---|
| HashTables.HashTable.constructor | proyecto2.py:12-15 | A new table has `size` empty buckets, a count of 0 and no contents. |
| HashTables.Slot | proyecto2.py:17-19 | The bucket of a key is `hash(key) % size`, which is always a valid bucket index. |
| HashTables.HashTable.Insert | proyecto2.py:21-34 | The contents become the old contents with `key` set to `value`, and the table stays well formed. For an existing key, the bucket array is the old one with that key's pair overwritten where it stands, and the count is unchanged. For a new key, the bucket array is the old one with the pair appended to the end of the key's bucket, and the count goes up by one. |
| HashTables.ReplacePreservesRepresents | proyecto2.py:27-30 | Overwriting the pair of a stored key in place stores the updated map. |
| HashTables.AppendPreservesRepresents | proyecto2.py:32-34 | Appending a pair for an absent key to its bucket stores the extended map. |
| HashTables.FindValue | proyecto2.py:40-44 | The bucket scan finds nothing exactly when no pair of the bucket has the key; otherwise it returns the value of a pair with that key. |
| HashTables.HashTable.Get | proyecto2.py:36-44 | `get` returns the value stored under the key, or None when the key is absent. |
| HashTables.HashTable.Exists | proyecto2.py:58-60 | `exists` is true exactly when the key is stored. |
| HashTables.HashTable.Delete | proyecto2.py:46-56 | The result is True exactly when the key was stored, and the key leaves the contents. On True, the bucket array is the old one with the key's pair cut out of its bucket, the rest of the bucket in order, and the count goes down by one. On False, the bucket array and the count are untouched. |
| HashTables.RemovePreservesRepresents | proyecto2.py:52-55 | Deleting the pair of a key from its bucket stores the map without that key. |
| HashTables.HashTable.GetAllValues | proyecto2.py:62-68 | The result lists the values bucket by bucket, in order within each bucket, and its length equals the count. |
| HashTables.AllValuesContains | proyecto2.py:62-68 | Every stored value appears in the listing. |
| HashTables.AllValuesFrom | proyecto2.py:62-68 | Every value of the listing is the value of a stored pair. |
| HashTables.ValuesOnceEach | proyecto2.py:62-68 | When every stored value names its own key, the listing holds each stored value exactly once and nothing else. |
| Fnv.Fnv1 | proyecto2.py:106-109 | The accumulator stays below 2^32 after every byte. |
| Fnv.CalcularHashFnv1 | proyecto2.py:101-111 | The loop computes the decimal rendering of the FNV-1 accumulator over the UTF-8 bytes of the text. The digest is all digits, and its value is below 2^32. |
| Fnv.EmptyDigest | proyecto2.py:103-111 | The digest of the empty text is the offset basis, "2166136261". |
| Fnv.MultiplyByPrimeUndone | proyecto2.py:108 | Multiplying by the FNV prime modulo 2^32 is undone by multiplying by 899433627, so this step loses nothing. |
| Fnv.XorInjective | proyecto2.py:109 | XOR with a fixed byte is injective in the accumulator. |
| Fnv.XorInjectiveInByte | proyecto2.py:109 | XOR into a fixed accumulator is injective in the byte. |
| Fnv.StepInjective | proyecto2.py:108-109 | One round, multiply then XOR, is injective in the accumulator. |
| Fnv.LastByteChangesFnv1 | proyecto2.py:107-109 | Two inputs that differ only in their last byte have different accumulators. |
| Fnv.SingleByteChangeChangesFnv1 | proyecto2.py:107-109 | Two inputs that differ in exactly one byte have different accumulators. |
| Fnv.SingleByteChangeChangesDigest | proyecto2.py:101-111 | Two texts whose UTF-8 bytes differ in exactly one byte get different digests. |
| Text.Utf8Two | proyecto2.py:107 | A code point from U+0080 to U+07FF becomes a lead byte 110xxxxx and one continuation byte, and these decode back to the code point. |
| Text.Utf8Three | proyecto2.py:107 | A code point from U+0800 to U+FFFF becomes a lead byte 1110xxxx and two continuation bytes, and these decode back to the code point. |
| Text.Utf8Four | proyecto2.py:107 | A code point from U+10000 to U+10FFFF becomes a lead byte 11110xxx and three continuation bytes, and these decode back to the code point. |
| Text.Utf8Char | proyecto2.py:107 | A character encodes to 1 to 4 bytes. It encodes to a single byte exactly when it is below U+0080, and that byte is the code point. |
| Text.Utf8 | proyecto2.py:107 | A text of n characters encodes to between n and 4n bytes. |
| Text.NormalizeNewlines | proyecto2.py:151-152 | Reading in text mode leaves no carriage return, and leaves a text without carriage returns unchanged. |
| Text.NatToDecimalInjective | proyecto2.py:111 | Distinct accumulator values have distinct decimal renderings. |
| Text.DecimalRoundTrip | proyecto2.py:111 | The decimal rendering reads back as the number it renders. |
| Text.IntToString | proyecto2.py:142 | `str` of an integer is non-empty, all digits except for a leading minus sign. |
| Text.ParseInt | proyecto2.py:125 | `int()` succeeds exactly on an optional sign followed by digits (single underscores allowed between digits), with whitespace around them. The value is negative only after a minus sign. |
| Text.ParseIntRoundTrip | proyecto2.py:125 | `int(str(n)) == n` for every integer n, so a year written by line 142 loads back unchanged. |
| Text.StripLeft | proyecto2.py:121-122 | `lstrip` drops exactly the leading whitespace. |
| Text.StripRight | proyecto2.py:121-122 | `rstrip` drops exactly the trailing whitespace. |
| Text.Strip | proyecto2.py:121-122 | The result of `strip` neither starts nor ends with whitespace. |
| Text.StripUnchanged | proyecto2.py:121-122 | A text that neither starts nor ends with whitespace is its own `strip()`. |
| Text.StripKeeps | proyecto2.py:121-122 | `lstrip` and `rstrip` add no occurrence of a character, and drop none of a character that is not whitespace. |
| Text.StripLeftBefore | proyecto2.py:121-122 | `lstrip` stops at the first non-space character, leaving what follows untouched. |
| Text.StripRightAfter | proyecto2.py:121-122 | `rstrip` stops at the last non-space character, leaving what precedes untouched. |
| Text.StripAround | proyecto2.py:121-122 | `strip()` of a text around a middle with non-space ends only trims the outer parts. |
| Text.Split | proyecto2.py:122 | `split('\|')` gives at least one piece, and no piece contains the separator. |
| Text.SplitLength | proyecto2.py:122-123 | The number of pieces is the number of separators plus one. |
| Text.JoinSeparators | proyecto2.py:142 | Joining n pieces adds n-1 separators to those already in the pieces. |
| Text.SplitJoin | proyecto2.py:122 | Splitting the join of separator-free pieces gives the pieces back, which is how a line written at line 142 is read back. |
| Text.JoinSplit | proyecto2.py:122 | Joining the pieces of a split gives the text back. |
| Text.Lower | proyecto2.py:131 | Lower-casing keeps the length, leaves no ASCII capital, and keeps every other character. |
| Text.LowerIdempotent | proyecto2.py:249 | Lower-casing twice is the same as lower-casing once. |
| Text.LexLeTotal | proyecto2.py:249-265 | Any two keys are comparable under Python's string `<=`. |
| Text.LexLeTransitive | proyecto2.py:249-265 | String `<=` is transitive. |
| Text.LexLeAntisymmetric | proyecto2.py:249-265 | Two keys that are each `<=` the other are equal. |
| Sorting.Insert | proyecto2.py:249-265 | Inserting into a sorted list keeps it sorted, and adds exactly that element. |
| Sorting.SortBy | proyecto2.py:249-265 | `sorted(xs, key=k)` is non-decreasing in the key and a permutation of `xs`. |
| Codec.LineBody | proyecto2.py:142 | A line is the five fields joined by `\|`. When no text field holds `\|`, splitting the line on `\|` gives back exactly the digest, title, authors, rendered year and file name. |
| Codec.FormatLine | proyecto2.py:142 | The written line ends with a newline. When no text field holds a line break, that newline is its only line break, so splitting it at newlines gives the line body and nothing else. |
| Codec.SerializeDatabase | proyecto2.py:139-143 | The file is empty exactly when there are no records, and otherwise ends with a newline. |
| Codec.ParseLine | proyecto2.py:121-125 | A line is Blank exactly when `strip()` leaves nothing, and WrongFieldCount exactly when the stripped line holds other than four `\|`. It is parsed exactly when, besides, `int()` reads the fourth piece; the record's fields are then the five pieces of the stripped line, which hold no `\|` and join back to it, and its year is that number. Any other line is BadYear. |
| Codec.Collect | proyecto2.py:118-134 | The load is cut short exactly when some line has a bad year, since the one `try` around the loop ends it there. Every loaded record comes from a parsed line, and there are no more records than lines. `CollectIsParsedPrefix` gives the converse. |
| Codec.ParseDatabase | proyecto2.py:113-134 | Reading the file text is cut short exactly when some line of the file has a bad year. The loaded records are, in order, exactly the parses of the parsed lines before the first bad year. |
| Codec.FirstBad | proyecto2.py:118-134 | The position of the first line with a bad year, or the number of lines when there is none: no bad year comes before it. |
| Codec.ParsedIn | proyecto2.py:120-132 | The records of the parsed lines, in order: every parsed line's record is among them, and nothing else. |
| Codec.CollectIsParsedPrefix | proyecto2.py:118-134 | A load keeps, in order, the records of every parsed line before the first bad year and nothing else, and is cut short exactly when there is a bad year. |
| Codec.LineBodyShape | proyecto2.py:142 | A written line is digest, title, authors, year and file name, joined by `\|`. |
| Codec.YearFieldOk | proyecto2.py:142 | The written year contains no separator and no line break, and has no whitespace at either end. |
| Codec.LineBodyEnds | proyecto2.py:142 | A written line starts with the digest's first character (or `\|`) and ends with the file name's last character (or `\|`). |
| Codec.LineBodyStripped | proyecto2.py:121-122 | If the digest does not start with whitespace and the file name does not end with it, `strip()` leaves the written line unchanged, and the line is not blank. |
| Codec.LineRoundTrip | proyecto2.py:121-125 | Parsing the line written for a serialisable record gives that record back. |
| Codec.WrittenLineOutcome | proyecto2.py:121-125 | The line of a record without a line break in a text field is skipped for having more than five fields when a text field holds `\|`. Otherwise it parses back to the record as `strip()` leaves it: the record itself when its digest does not start and its file name does not end with whitespace. |
| Codec.LineBodyTrimmed | proyecto2.py:121-122 | `strip()` of a written line is the line of the trimmed record: the separators stop it, so only the digest's leading and the file name's trailing whitespace go. |
| Codec.Trimmed | proyecto2.py:121-122 | The record as the line's `strip()` leaves it has no whitespace at the line's edges, keeps title, authors and year, and is the record itself when the line had clean edges. |
| Codec.TrimmedKeepsFields | proyecto2.py:121-122 | The trimmed record has a `\|` in a field exactly when the record does, and gains no line break. |
| Codec.LineBodyHasNoBreak | proyecto2.py:142 | When no text field holds a line break, the written line contains neither a newline nor a carriage return, so it stays one line when the file is read back. |
| Codec.LineBodySeparators | proyecto2.py:142 | A written line has 4 separators plus those inside its text fields. |
| Codec.SeparatorInFieldSplitsLine | proyecto2.py:122-123 | A record with a `\|` in a text field is written as a line that parses to more than five fields. |
| Codec.SeparatorInFieldDropsRecord | proyecto2.py:118-134 | In a file written for records without a line break in a text field, a record with a `\|` in a text field is lost by the next load: it is not among the loaded records, and the load is not interrupted. |
| Codec.SerializeFront | proyecto2.py:139-143 | The file is the first record's line followed by the file for the rest. |
| Codec.SerializeHasNoCarriageReturn | proyecto2.py:139-143 | The file written for records without a line break in a text field contains no carriage return. |
| Codec.SplitSerialized | proyecto2.py:118-120 | For records without a line break in a text field, splitting the written file at newlines gives one line per record, in order, then an empty remainder. |
| Codec.OutcomesOfBodies | proyecto2.py:120-125 | For records without a line break in a text field, the written lines, and the empty piece after the last newline, have as outcomes each record as `strip()` leaves it or a skip, in order, and then a blank. |
| Codec.CollectParsed | proyecto2.py:120-132 | The outcomes of the written lines, followed by a blank line, load exactly the loadable records, in order and uninterrupted. |
| Codec.Kept | proyecto2.py:123 | The serialisable records, in order: every kept record is a serialisable written one, and every serialisable written record is kept. Records with a line break in a field or whitespace at an edge of their line are dropped too; among records on one line, the dropped ones are exactly those with a `\|` in a text field. |
| Codec.KeptAll | proyecto2.py:123 | When no record has a `\|` in a field, every record is kept. |
| Codec.Loadable | proyecto2.py:121-125 | What a load reads back from written lines: the trimmed form of every record without a `\|` in a field, in order, and nothing else. |
| Codec.LoadableOnOneLine | proyecto2.py:121-125 | For records whose lines have clean edges, what a load reads back is exactly the kept records, unchanged. |
| Codec.DatabaseLoad | proyecto2.py:113-145 | Reading back the file written for records without a line break in a text field gives, in order and with nothing interrupted, the records without a `\|` in a field, each with leading whitespace dropped from its digest and trailing whitespace from its file name. When no line has whitespace at its edges, these are exactly the kept records, unchanged. |
| Codec.DatabaseRoundTrip | proyecto2.py:113-145 | Reading back the file written for serialisable records gives the same records in the same order, with nothing interrupted. |
| Codec.SkippedLineChangesNothing | proyecto2.py:121-123 | A blank line, or a line without exactly five fields, adds nothing to the load. |
| Codec.CollectStopsAtBadYear | proyecto2.py:125-134 | The first line with an unreadable year ends the load: the records before it are kept and none after it are read. |
| Codec.LoadStopsAtBadYear | proyecto2.py:118-134 | The same, stated over the lines of the file. |
| Codec.OutcomesAppend | proyecto2.py:120 | The lines are parsed independently, so the outcomes of two runs of lines concatenate. |
| Codec.CollectedFieldsHaveNoSeparator | proyecto2.py:122-125 | No loaded record has a `\|` in its digest, title, authors or file name. |
| Indices.AppendTo | proyecto2.py:131-132 | `indice[k].append(a)` on a defaultdict (also at lines 176-177 and 207-208) makes the list under `k` the old list with `a` at its end, and changes no other list. |
| Indices.FirstIndex | proyecto2.py:197-199 | This is the position of the first occurrence of the record. |
| Indices.RemoveFirst | proyecto2.py:197-199 | `list.remove(a)` cuts out the first occurrence of `a` and keeps the rest of the list in order. |
| Indices.RemoveAt | proyecto2.py:196-199 | Removing from the list under `k` takes one occurrence from that list and changes no other list. |
| Indices.Unfiled | proyecto2.py:231-234 | The guarded removal takes one occurrence of the record from the list of its key when it is filed there, leaves the index unchanged otherwise, and changes no other list. |
| Indices.LiveIsFiled | proyecto2.py:196-199 | Under the invariant, a stored record is present in the list of its key, so the guarded `remove` (also at lines 231-234) never fails. |
| Indices.BucketCounts | proyecto2.py:247-255 | Under the invariant, the list filed under a key holds each stored record with that key exactly once. |
| Indices.IndexAdd | proyecto2.py:172-178 | Filing a record with a fresh digest keeps an index in step with the extended table. |
| Indices.IndexRemove | proyecto2.py:230-237 | Unfiling a stored record keeps an index in step with the table without it. |
| Indices.IndexReplace | proyecto2.py:195-207 | Unfiling a record and filing its updated version, which has the same digest, keeps an index in step with the updated table. |
| Indices.AddKeepsConsistent | proyecto2.py:172-178 | The steps of `agregar_articulo` preserve the invariant. |
| Indices.DeleteKeepsConsistent | proyecto2.py:230-237 | The steps of `eliminar_articulo` preserve the invariant. |
| Indices.DeleteStep | proyecto2.py:230-237 | Deleting a digest from a consistent state unfiles its record from both indexes and removes it from the table, and the state stays consistent. |
| Indices.ReplaceKeepsConsistent | proyecto2.py:195-207 | The steps of `modificar_articulo` preserve the invariant. |
| Indices.Empty | proyecto2.py:89-91 | An empty table with empty indexes satisfies the invariant. |
| Indices.LoadStepAsWritten | proyecto2.py:127-132 | As written, a loaded record is stored under its digest, overwriting any record there, and appended to the end of the lists of its author key and year. No list loses an entry, so an overwritten record stays filed. |
| Indices.DuplicateDigestLeavesStaleEntry | proyecto2.py:127-132 | As written, loading two different lines with the same digest leaves the first record filed under its authors and its year. The table then holds only the second record, and the invariant fails. |
| Indices.LoadStep | proyecto2.py:127-132 | The corrected load step stores the record under its digest and preserves the invariant. |
| Indices.LoadAll | proyecto2.py:119-132 | Loading a run of records preserves the invariant. The resulting table is the old table overridden by the run, with the last record of each digest winning. |
| Indices.RecordsMapSpec | proyecto2.py:127 | Each entry of the loaded map is a record of the run, stored under its own digest, and every digest of the run is present. |
| Indices.RecordsMapOfListing | proyecto2.py:140 | Loading a listing that holds each stored record once gives back exactly the stored map. |
| Gestor.NombreArchivo | proyecto2.py:162 | An article's text file is named by its digest followed by `.txt`. |
| Gestor.NombreArchivoInjective | proyecto2.py:162 | Different digests get different file names, so copying one article's text never overwrites another's. |
| Gestor.Modificado | proyecto2.py:201-204 | A truthy new author or year replaces the old value. `None`, the empty string and 0 leave it as it was. Digest, title and file name are kept. |
| Gestor.ListingOnce | proyecto2.py:140 | The listing of the store holds each stored record exactly once. |
| Gestor.ListingSerializable | proyecto2.py:139-142 | If every stored record is serialisable, so is every record of the listing. |
| Gestor.SaveLoadRoundTrip | proyecto2.py:113-145 | Saving a store of serialisable records and loading the file into an empty store gives back the same table, without interruption. |
| Gestor.GestorArticulos.constructor | proyecto2.py:88-99 | The new store has 200 buckets and empty indexes. With no database file it stays empty; otherwise it holds the records of the file as loaded. |
| Gestor.GestorArticulos.CargarBaseDatos | proyecto2.py:113-134 | Without a file, nothing changes. Otherwise, the state becomes the corrected load of the file's records, in order, and the invariant holds. |
| Gestor.GestorArticulos.Archivar | proyecto2.py:127-132 | Storing a record, on load or from lines 173-177, performs one corrected load step. The count grows exactly when the digest was new. The record's pair is either appended to its bucket or overwrites the old pair where it stands. |
| Gestor.GestorArticulos.Reindexar | proyecto2.py:195-207 | The indexes become those of the load step: the replaced record is unfiled and the new one is filed under its keys. |
| Gestor.GestorArticulos.GuardarBaseDatos | proyecto2.py:136-145 | The database file becomes one line per record in listing order. The table, the indexes and the article directory are unchanged. |
| Gestor.GestorArticulos.AgregarArticulo | proyecto2.py:147-185 | The result is success, a duplicate or a file error, never "not found". A text that cannot be read is a file error. A text whose digest is stored already is a duplicate, and a failed copy is a file error. In all three cases nothing changes, bucket array included. A readable text with a new digest and a successful copy is always a success: the text is copied to `<digest>.txt`; the state is one load step with the new record, which appends it to its bucket and to the ends of its author and year lists; the count grows by one; and the file is rewritten. |
| Gestor.GestorArticulos.ModificarArticulo | proyecto2.py:187-216 | An unknown digest is reported as not found, and nothing changes, bucket array included. Otherwise the state is one load step with the truthy-updated record: the old record is cut out of its author and year lists and the new one appended to the ends of its lists. Its pair is overwritten where it stands, the count is kept and the file is rewritten. |
| Gestor.GestorArticulos.EliminarArticulo | proyecto2.py:218-245 | An unknown digest is reported as not found, and nothing changes, bucket array included. Otherwise: the article's text file is removed; the state is one delete step, which cuts the record out of both index lists and the table; its pair is cut out of its bucket; the count drops by one; and the file is rewritten. |
| Gestor.GestorArticulos.BuscarPorAutor | proyecto2.py:247-250 | The result holds exactly the stored records whose lower-cased authors equal the lower-cased query, once each, sorted by lower-cased title. |
| Gestor.GestorArticulos.BuscarPorAutorIgnoraMayusculas | proyecto2.py:249 | The author search ignores the case of the query: a query and its lower-cased form find the same records. |
| Gestor.GestorArticulos.BuscarPorAnio | proyecto2.py:252-255 | The result holds exactly the stored records of that year, once each, sorted by lower-cased title. |
| Gestor.GestorArticulos.ListarPorTitulo | proyecto2.py:257-260 | The result holds every stored record once, sorted by lower-cased title, and has as many entries as the count. |
| Gestor.GestorArticulos.ListarPorAutor | proyecto2.py:262-265 | The result holds every stored record once, sorted by lower-cased authors, and has as many entries as the count. |

## Left out

- The Tkinter interface (`InterfazGrafica`) is not part of this model. Neither are the dialog and message texts; results are the four outcomes of `Resultado`.
- File-system I/O is modelled by inputs and fields:
  - the database file is the field `baseDatos`;
  - the article directory is the field `cuerpos`;
  - reading the chosen file is the parameter `lectura` (`None` when it cannot be read);
  - copying it is the flag `escrituraOk`.
- `os.makedirs` for the article directory is not modelled; the directory is always there.
- Python's salted `hash()` on strings is the constructor parameter `hash`, because its value changes from run to run.
- Text.Lower: only ASCII letters are lower-cased. Python's `str.lower` also folds other scripts, and this model does not.
- Text.ParseInt: only ASCII digits are accepted. Python's `int` also accepts other Unicode decimal digits, and this model does not.
- Gestor.GestorArticulos.CargarBaseDatos: a database file that is not valid UTF-8 is not modelled; the file is given as already decoded text.
- Gestor.GestorArticulos.CargarBaseDatos: this follows the corrected load step (see Findings), not the code as written. The code as written is `Indices.LoadStepAsWritten`.
- Gestor.GestorArticulos.GuardarBaseDatos: a failed write of the database file, which the source only prints, is not modelled; the write always succeeds.
- Gestor.GestorArticulos.AgregarArticulo: a copy that fails after writing part of the file is not modelled; the copy either happens in full or not at all.
- Gestor.GestorArticulos.EliminarArticulo: a failing `os.remove` is not modelled. A missing text file is simply skipped, as in the source.
- Gestor.GestorArticulos.ModificarArticulo: the `except` path is not modelled. Under the invariant the record is always in the list of its key, so `list.remove` cannot raise. The model skips a missing entry instead of failing.
- Articles are values, not objects. `list.remove` compares by identity for a plain class; here records are compared by value. Under the invariant each digest has one record, so the two agree.
- Codec.DatabaseLoad: says nothing about a record with a line break in a text field. The load would read its line as several lines, and what those pieces load is not characterised. The same holds for `WrittenLineOutcome`, `SeparatorInFieldDropsRecord`, `SerializeHasNoCarriageReturn` and `SplitSerialized`, which require every field to be free of line breaks.
- Sorting.SortBy: stability (ties keep their input order) holds by construction but is not stated as a lemma.

## Findings

| source | as written | input that shows it | evidently intended | confidence | as-written member | corrected member |
|---|---|---|---|---|---|---|
| proyecto2.py:127-132 | The load inserts each record into the table, which overwrites an earlier record with the same digest, and appends it to both indexes without unfiling the record it overwrote. | A database file with two different lines that share a digest, e.g. `1\|t\|x\|2000\|1.txt` then `1\|t\|y\|2000\|1.txt`. After loading, the table holds only the second record, yet the first is still returned by a search for authors `x` and is listed a second time for year 2000. `Indices.DuplicateDigestLeavesStaleEntry` proves this for any two different records that share a digest. | The indexes agree with the table after a load: the overwritten record is unfiled first, as `modificar_articulo` does. | medium; not executed | Indices.LoadStepAsWritten | Indices.LoadStep |

=== FILE: articulo.dfy ===
/** `Articulo`: the metadata of one article, the value the store keeps under its digest. */
module Articulos {
  import opened Text

  /**
   * `hashId` is the content digest and primary key, `archivoNombre` the name of the
   * file that holds the article's text; `titulo` never changes after creation.
   */
  datatype Articulo = Articulo(hashId: string, titulo: string, autores: string, anio: int, archivoNombre: string)

  /** The sort key of `listar_por_titulo` and of both `buscar_*` queries: `titulo.lower()`. */
  function TituloKey(a: Articulo): string
  {
    Lower(a.titulo)
  }

  /** The sort key of `listar_por_autor`, and the author index key: `autores.lower()`. */
  function AutoresKey(a: Articulo): string
  {
    Lower(a.autores)
  }

  /** The key of the year index: the year itself. */
  function AnioKey(a: Articulo): int
  {
    a.anio
  }

  /** The key of the primary table: the digest. */
  function DigestKey(a: Articulo): string
  {
    a.hashId
  }
}

=== FILE: codec.dfy ===
/**
 * The flat database file: one line per article, five fields separated by '|'
 * (digest, title, authors, year, body file name), each line ended by "\n".
 * `guardar_base_datos` writes it; `cargar_base_datos` reads it back line by line,
 * skipping blank lines and lines without exactly five fields, and giving up on
 * the rest of the file at the first year that `int()` rejects.
 */
module Codec {
  import opened Wrappers
  import opened Text
  import opened Articulos

  /**
   * The line written for one article, without its terminator: the five fields joined
   * by '|'. When no text field holds the separator, splitting gives the fields back.
   */
  function LineBody(a: Articulo): (r: string)
    ensures !SeparatorInField(a) ==> Split(r, '|') == [a.hashId, a.titulo, a.autores, IntToString(a.anio), a.archivoNombre]
  {
    var fields := [a.hashId, a.titulo, a.autores, IntToString(a.anio), a.archivoNombre];
    if SeparatorInField(a) then Join(fields, '|')
    else
      YearFieldOk(a.anio);
      SplitJoin(fields, '|');
      Join(fields, '|')
  }

  /**
   * The line written for one article, terminator included. When no field holds a
   * line break, the newline is the line's only one, so it reads back as one line.
   */
  function FormatLine(a: Articulo): (r: string)
    ensures |r| > 0 && r[|r| - 1] == '\n'
    ensures BreakFree(a) ==> Split(r, '\n') == [LineBody(a), ""]
  {
    if BreakFree(a) then
      LineBodyHasNoBreak(a);
      SplitFirstLine(LineBody(a), "");
      assert LineBody(a) + "\n" + "" == LineBody(a) + "\n";
      LineBody(a) + "\n"
    else LineBody(a) + "\n"
  }

  /** The whole file written for `arts`, one line each, in order: empty exactly when there is nothing to write, and ended by a newline otherwise. */
  function SerializeDatabase(arts: seq<Articulo>): (r: string)
    ensures r == [] <==> arts == []
    ensures arts != [] ==> r[|r| - 1] == '\n'
  {
    ConcatMap(arts, FormatLine)
  }

  /** The texts `f` gives for the elements of `xs`, one after another. */
  function ConcatMap<T>(xs: seq<T>, f: T -> string): string
  {
    if xs == [] then [] else ConcatMap(xs[..|xs| - 1], f) + f(xs[|xs| - 1])
  }

  /** What one line of the file contributes to a load. */
  datatype LineOutcome =
    | Blank            // nothing but whitespace: skipped
    | WrongFieldCount  // not exactly five fields: skipped
    | BadYear          // `int()` rejects the year: the load stops here
    | Parsed(articulo: Articulo)

  /**
   * One line as `cargar_base_datos` reads it: stripped, split on '|', year through
   * `int()`. It is blank exactly when only whitespace is left, has the wrong field
   * count exactly when the stripped line holds other than four separators, and
   * otherwise is parsed exactly when `int()` reads the fourth piece, yielding the
   * five separator-free pieces of the stripped line, which join back to it.
   */
  function ParseLine(line: string): (r: LineOutcome)
    ensures r == Blank <==> Strip(line) == []
    ensures r == WrongFieldCount <==> Strip(line) != [] && CountChar(Strip(line), '|') != 4
    ensures r.Parsed? <==>
              var partes := Split(Strip(line), '|');
              Strip(line) != [] && |partes| == 5 && ParseInt(partes[3]).Some?
    ensures r.Parsed? ==>
              var a := r.articulo;
              var partes := Split(Strip(line), '|');
              && !SeparatorInField(a)
              && |partes| == 5
              && partes[0] == a.hashId && partes[1] == a.titulo && partes[2] == a.autores && partes[4] == a.archivoNombre
              && ParseInt(partes[3]) == Some(a.anio)
              && Join(partes, '|') == Strip(line)
  {
    var t := Strip(line);
    if t == [] then Blank
    else
      var partes := Split(t, '|');
      SplitLength(t, '|');
      if |partes| != 5 then WrongFieldCount
      else
        match ParseInt(partes[3])
        case None => BadYear
        case Some(anio) =>
          var a := Articulo(partes[0], partes[1], partes[2], anio, partes[4]);
          JoinSplit(t, '|');
          Parsed(a)
  }

  /** The records a load inserts, in file order, and whether a bad year cut it short. */
  datatype Loaded = Loaded(registros: seq<Articulo>, interrumpida: bool)

  /**
   * The records of a run of line outcomes, up to the first bad year: the load is
   * cut short exactly when some line has a bad year, and every record comes from a
   * parsed line.
   */
  function Collect(outcomes: seq<LineOutcome>): (r: Loaded)
    ensures |r.registros| <= |outcomes|
    ensures r.interrumpida <==> BadYear in outcomes
    ensures forall x :: x in r.registros ==> Parsed(x) in outcomes
  {
    if outcomes == [] then Loaded([], false)
    else
      match outcomes[0]
      case Parsed(a) =>
        var rest := Collect(outcomes[1..]);
        Loaded([a] + rest.registros, rest.interrumpida)
      case BadYear => Loaded([], true)
      case _ => Collect(outcomes[1..])
  }

  /** The position of the first bad year among the outcomes, or their length when there is none. */
  function FirstBad(outcomes: seq<LineOutcome>): (k: nat)
    ensures k <= |outcomes|
    ensures BadYear !in outcomes[..k]
    ensures k < |outcomes| ==> outcomes[k] == BadYear
  {
    if outcomes == [] then 0
    else if outcomes[0] == BadYear then 0
    else
      assert outcomes[..1 + FirstBad(outcomes[1..])] == [outcomes[0]] + outcomes[1..][..FirstBad(outcomes[1..])];
      1 + FirstBad(outcomes[1..])
  }

  /** The articles of the parsed outcomes, in order. */
  function ParsedIn(outcomes: seq<LineOutcome>): (r: seq<Articulo>)
    ensures |r| <= |outcomes|
    ensures forall x :: x in r ==> Parsed(x) in outcomes
    ensures forall i :: 0 <= i < |outcomes| && outcomes[i].Parsed? ==> outcomes[i].articulo in r
  {
    if outcomes == [] then []
    else
      var rest := ParsedIn(outcomes[1..]);
      assert forall i :: 1 <= i < |outcomes| ==> outcomes[i] == outcomes[1..][i - 1];
      if outcomes[0].Parsed? then [outcomes[0].articulo] + rest else rest
  }

  /**
   * Conversely to the contract of `Collect`: a load keeps, in order, the articles of
   * every parsed line before the first bad year, and only those.
   */
  lemma {:induction false} CollectIsParsedPrefix(outcomes: seq<LineOutcome>)
    ensures Collect(outcomes).registros == ParsedIn(outcomes[..FirstBad(outcomes)])
    ensures Collect(outcomes).interrumpida <==> FirstBad(outcomes) < |outcomes|
  {
    if outcomes != [] && outcomes[0] != BadYear {
      var k := FirstBad(outcomes[1..]);
      CollectIsParsedPrefix(outcomes[1..]);
      assert outcomes[..1 + k][1..] == outcomes[1..][..k];
    }
  }

  /** The outcome of each line, in order. */
  function Outcomes(lines: seq<string>): (os: seq<LineOutcome>)
    ensures |os| == |lines|
  {
    seq(|lines|, i requires 0 <= i < |lines| => ParseLine(lines[i]))
  }

  /** What a load inserts from `lines`. */
  function ParseLines(lines: seq<string>): Loaded
  {
    Collect(Outcomes(lines))
  }

  /**
   * The records a load of the file text inserts: cut short exactly when some line of
   * the file has a bad year, each record parsed from a line of the file, and every
   * parsed line before the first bad year loaded, in order.
   */
  function ParseDatabase(text: string): (r: Loaded)
    ensures r.interrumpida <==> exists i :: 0 <= i < |Lines(text)| && ParseLine(Lines(text)[i]) == BadYear
    ensures forall x :: x in r.registros ==> exists i :: 0 <= i < |Lines(text)| && ParseLine(Lines(text)[i]) == Parsed(x)
    ensures var os := Outcomes(Lines(text)); r.registros == ParsedIn(os[..FirstBad(os)])
  {
    var lines := Lines(text);
    var os := Outcomes(lines);
    assert forall i :: 0 <= i < |os| ==> os[i] == ParseLine(lines[i]);
    CollectIsParsedPrefix(os);
    ParseLines(lines)
  }

  /** A field the format can carry: no separator and no line break inside. */
  predicate FieldOk(s: string)
  {
    '|' !in s && '\n' !in s && '\r' !in s
  }

  /** No line break inside. */
  predicate NoBreak(s: string)
  {
    '\n' !in s && '\r' !in s
  }

  /** No text field of the article holds a line break, so its line stays one line of the file. */
  predicate BreakFree(a: Articulo)
  {
    NoBreak(a.hashId) && NoBreak(a.titulo) && NoBreak(a.autores) && NoBreak(a.archivoNombre)
  }

  /**
   * An article whose line reads back as it was written: no line break in a text
   * field, and neither leading whitespace on the digest nor trailing whitespace on
   * the file name, which the line's `strip()` would eat.
   */
  predicate OnOneLine(a: Articulo)
  {
    && BreakFree(a)
    && (a.hashId == [] || !IsSpace(a.hashId[0]))
    && (a.archivoNombre == [] || !IsSpace(a.archivoNombre[|a.archivoNombre| - 1]))
  }

  /** Some text field of the article holds the separator. */
  predicate SeparatorInField(a: Articulo)
  {
    '|' in a.hashId || '|' in a.titulo || '|' in a.autores || '|' in a.archivoNombre
  }

  /** An article the file stores faithfully: on one line, with no separator inside a field. */
  predicate Serializable(a: Articulo)
  {
    OnOneLine(a) && !SeparatorInField(a)
  }

  /**
   * The article as the line's `strip()` leaves it: leading whitespace gone from the
   * digest and trailing whitespace from the file name. It changes nothing in an
   * article already on one line.
   */
  function Trimmed(a: Articulo): (r: Articulo)
    ensures r.titulo == a.titulo && r.autores == a.autores && r.anio == a.anio
    ensures r.hashId == [] || !IsSpace(r.hashId[0])
    ensures r.archivoNombre == [] || !IsSpace(r.archivoNombre[|r.archivoNombre| - 1])
    ensures OnOneLine(a) ==> r == a
  {
    a.(hashId := StripLeft(a.hashId), archivoNombre := StripRight(a.archivoNombre))
  }

  /** Trimming keeps the separators and the line breaks of the fields, and adds none. */
  lemma TrimmedKeepsFields(a: Articulo)
    ensures SeparatorInField(Trimmed(a)) <==> SeparatorInField(a)
    ensures BreakFree(a) ==> BreakFree(Trimmed(a))
  {
    StripKeeps(a.hashId, '|');
    StripKeeps(a.archivoNombre, '|');
    StripKeeps(a.hashId, '\n');
    StripKeeps(a.archivoNombre, '\n');
    StripKeeps(a.hashId, '\r');
    StripKeeps(a.archivoNombre, '\r');
  }

  /** The rendered year is a valid field: digits and perhaps a leading minus. */
  lemma YearFieldOk(n: int)
    ensures FieldOk(IntToString(n))
    ensures !IsSpace(IntToString(n)[0]) && !IsSpace(IntToString(n)[|IntToString(n)| - 1])
  {
    var s := IntToString(n);
    forall i | 0 <= i < |s| ensures s[i] != '|' && s[i] != '\n' && s[i] != '\r' {
    }
  }

  /** `sep.join` of five pieces, written out. */
  lemma JoinFive(p: string, q: string, r: string, t: string, u: string, sep: char)
    ensures Join([p, q, r, t, u], sep) == p + [sep] + q + [sep] + r + [sep] + t + [sep] + u
  {
    var fs := [p, q, r, t, u];
    assert fs[4..] == [u] && fs[3..][1..] == fs[4..];
    assert Join(fs[3..], sep) == t + [sep] + u;
    assert fs[2..][1..] == fs[3..];
    assert Join(fs[2..], sep) == r + [sep] + t + [sep] + u;
    assert fs[1..][1..] == fs[2..];
    assert Join(fs[1..], sep) == q + [sep] + r + [sep] + t + [sep] + u;
  }

  /** The line body spelled out field by field. */
  lemma LineBodyShape(a: Articulo)
    ensures LineBody(a) == a.hashId + "|" + a.titulo + "|" + a.autores + "|" + IntToString(a.anio) + "|" + a.archivoNombre
  {
    JoinFive(a.hashId, a.titulo, a.autores, IntToString(a.anio), a.archivoNombre, '|');
  }

  /** The first and last characters of `p + mid + u` around a non-empty middle. */
  lemma Ends(p: string, mid: string, u: string)
    requires mid != []
    ensures var s := p + mid + u;
            && s[0] == (if p == [] then mid[0] else p[0])
            && s[|s| - 1] == (if u == [] then mid[|mid| - 1] else u[|u| - 1])
  {
  }

  /** A line starts with the digest, or with `|` when it is empty, and ends with the file name, or with `|`. */
  lemma LineBodyEnds(a: Articulo)
    ensures var body := LineBody(a);
            && body != []
            && body[0] == (if a.hashId == [] then '|' else a.hashId[0])
            && body[|body| - 1] == (if a.archivoNombre == [] then '|' else a.archivoNombre[|a.archivoNombre| - 1])
  {
    LineBodyShape(a);
    var mid := "|" + a.titulo + "|" + a.autores + "|" + IntToString(a.anio) + "|";
    assert LineBody(a) == a.hashId + mid + a.archivoNombre;
    Ends(a.hashId, mid, a.archivoNombre);
  }

  /** A line whose digest does not start, and whose file name does not end, with whitespace is left alone by `strip()`. */
  lemma LineBodyStripped(a: Articulo)
    requires a.hashId == [] || !IsSpace(a.hashId[0])
    requires a.archivoNombre == [] || !IsSpace(a.archivoNombre[|a.archivoNombre| - 1])
    ensures Strip(LineBody(a)) == LineBody(a) != []
  {
    var body := LineBody(a);
    LineBodyEnds(a);
    assert !IsSpace(body[0]) && !IsSpace(body[|body| - 1]);
    StripUnchanged(body);
  }

  /** A serialisable article's line parses back to the same article. */
  lemma LineRoundTrip(a: Articulo)
    requires Serializable(a)
    ensures ParseLine(LineBody(a)) == Parsed(a)
  {
    var body := LineBody(a);
    LineBodyStripped(a);
    var partes := Split(Strip(body), '|');
    assert partes == [a.hashId, a.titulo, a.autores, IntToString(a.anio), a.archivoNombre];
    ParseIntRoundTrip(a.anio);
    assert ParseInt(partes[3]) == Some(a.anio);
  }

  /** No line break occurs in the line body of an article with none in its fields. */
  lemma LineBodyHasNoBreak(a: Articulo)
    requires BreakFree(a)
    ensures '\n' !in LineBody(a) && '\r' !in LineBody(a)
  {
    LineBodyShape(a);
    YearFieldOk(a.anio);
  }

  /** The file for a nonempty list is the first article's line followed by the file for the rest. */
  lemma SerializeFront(arts: seq<Articulo>)
    requires arts != []
    ensures SerializeDatabase(arts) == FormatLine(arts[0]) + SerializeDatabase(arts[1..])
  {
    ConcatMapFront(arts, FormatLine);
  }

  lemma ConcatMapFront<T>(xs: seq<T>, f: T -> string)
    requires xs != []
    ensures ConcatMap(xs, f) == f(xs[0]) + ConcatMap(xs[1..], f)
  {
    ConcatMapAppend([xs[0]], xs[1..], f);
    assert [xs[0]] + xs[1..] == xs;
    assert [xs[0]][..0] == [];
  }

  /** The texts for two runs are the texts for the first followed by those for the second. */
  lemma {:induction false} ConcatMapAppend<T>(a: seq<T>, b: seq<T>, f: T -> string)
    ensures ConcatMap(a + b, f) == ConcatMap(a, f) + ConcatMap(b, f)
  {
    if b == [] {
      assert a + b == a;
    } else {
      var n := |b| - 1;
      assert (a + b)[..|a + b| - 1] == a + b[..n];
      assert (a + b)[|a + b| - 1] == b[n];
      ConcatMapAppend(a, b[..n], f);
    }
  }

  /** The file written for articles without line breaks in their fields contains no carriage return. */
  lemma {:induction false} SerializeHasNoCarriageReturn(arts: seq<Articulo>)
    requires forall i :: 0 <= i < |arts| ==> BreakFree(arts[i])
    ensures '\r' !in SerializeDatabase(arts)
  {
    if arts != [] {
      SerializeHasNoCarriageReturn(arts[..|arts| - 1]);
      LineBodyHasNoBreak(arts[|arts| - 1]);
    }
  }

  /** The bodies of the lines, in order. */
  function Bodies(arts: seq<Articulo>): seq<string>
  {
    seq(|arts|, i requires 0 <= i < |arts| => LineBody(arts[i]))
  }

  /** Splitting the file on line breaks gives the line bodies and one empty trailing piece. */
  lemma {:induction false} SplitSerialized(arts: seq<Articulo>)
    requires forall i :: 0 <= i < |arts| ==> BreakFree(arts[i])
    ensures Split(SerializeDatabase(arts), '\n') == Bodies(arts) + [""]
  {
    if arts != [] {
      var body := LineBody(arts[0]);
      var rest := SerializeDatabase(arts[1..]);
      SerializeFront(arts);
      SplitSerialized(arts[1..]);
      LineBodyHasNoBreak(arts[0]);
      SplitFirstLine(body, rest);
      BodiesFront(arts);
    }
  }

  lemma BodiesFront(arts: seq<Articulo>)
    requires arts != []
    ensures Bodies(arts) + [""] == [LineBody(arts[0])] + (Bodies(arts[1..]) + [""])
  {
    assert Bodies(arts) == [LineBody(arts[0])] + Bodies(arts[1..]);
  }

  /** Splitting a line and its terminator in front of `rest` yields the line, then the pieces of `rest`. */
  lemma SplitFirstLine(body: string, rest: string)
    requires '\n' !in body
    ensures Split(body + "\n" + rest, '\n') == [body] + Split(rest, '\n')
  {
    var nl := "\n" + rest;
    assert body + "\n" + rest == body + nl;
    SplitPrefix(body, nl, '\n');
    assert nl[0] == '\n' && nl[1..] == rest;
    assert Split(nl, '\n') == [[]] + Split(rest, '\n');
    assert body + [] == body;
  }

  /**
   * What each written line contributes to a load: nothing when a field holds `|`,
   * and otherwise its article as the line's `strip()` leaves it.
   */
  function WrittenOutcomes(arts: seq<Articulo>): (os: seq<LineOutcome>)
    ensures |os| == |arts|
  {
    seq(|arts|, i requires 0 <= i < |arts| => if SeparatorInField(arts[i]) then WrongFieldCount else Parsed(Trimmed(arts[i])))
  }

  /**
   * The articles a load reads back from the lines written for `arts`, in order: the
   * trimmed form of each article with no separator inside a field.
   */
  function Loadable(arts: seq<Articulo>): (r: seq<Articulo>)
    ensures |r| <= |arts|
    ensures forall x :: x in r ==> !SeparatorInField(x) && exists y :: y in arts && !SeparatorInField(y) && x == Trimmed(y)
    ensures forall y :: y in arts && !SeparatorInField(y) ==> Trimmed(y) in r
  {
    if arts == [] then []
    else
      assert forall y :: y in arts[1..] ==> y in arts;
      TrimmedKeepsFields(arts[0]);
      if SeparatorInField(arts[0]) then Loadable(arts[1..])
      else [Trimmed(arts[0])] + Loadable(arts[1..])
  }

  /** For articles on one line each, what a load reads back is exactly the serialisable ones. */
  lemma {:induction false} LoadableOnOneLine(arts: seq<Articulo>)
    requires forall i :: 0 <= i < |arts| ==> OnOneLine(arts[i])
    ensures Loadable(arts) == Kept(arts)
  {
    if arts != [] {
      LoadableOnOneLine(arts[1..]);
    }
  }

  /**
   * The serialisable articles of `arts`, in order. This also drops an article with a
   * line break in a field or whitespace at an edge of its line; among articles on
   * one line, as `DatabaseLoad` requires, it drops exactly those with a separator
   * inside a field.
   */
  function Kept(arts: seq<Articulo>): (r: seq<Articulo>)
    ensures forall x :: x in r ==> x in arts && Serializable(x)
    ensures forall x :: x in arts && Serializable(x) ==> x in r
    ensures |r| <= |arts|
  {
    if arts == [] then []
    else if Serializable(arts[0]) then [arts[0]] + Kept(arts[1..])
    else Kept(arts[1..])
  }

  /** Serialisable articles are all kept. */
  lemma {:induction false} KeptAll(arts: seq<Articulo>)
    requires forall i :: 0 <= i < |arts| ==> Serializable(arts[i])
    ensures Kept(arts) == arts
  {
    if arts != [] {
      KeptAll(arts[1..]);
      assert [arts[0]] + arts[1..] == arts;
    }
  }

  /** `strip()` of a written line is the line of the trimmed article: the separators stop it at both ends. */
  lemma LineBodyTrimmed(a: Articulo)
    ensures Strip(LineBody(a)) == LineBody(Trimmed(a))
  {
    var b := Trimmed(a);
    var y := IntToString(a.anio);
    var mid := "|" + a.titulo + "|" + a.autores + "|" + y + "|";
    LineBodyShape(a);
    LineBodyShape(b);
    Regroup(a.hashId, a.titulo, a.autores, y, a.archivoNombre);
    Regroup(b.hashId, a.titulo, a.autores, y, b.archivoNombre);
    StripAround(a.hashId, mid, a.archivoNombre);
  }

  /** The line's digest, then its middle from the first separator to the last, then its file name. */
  lemma Regroup(h: string, t: string, au: string, y: string, f: string)
    ensures h + "|" + t + "|" + au + "|" + y + "|" + f == h + ("|" + t + "|" + au + "|" + y + "|") + f
  {
  }

  /**
   * The line of an article without line breaks in its fields has too many fields
   * to load when a field holds `|`, and otherwise parses back to the article as
   * `strip()` leaves it.
   */
  lemma WrittenLineOutcome(a: Articulo)
    requires BreakFree(a)
    ensures ParseLine(LineBody(a)) == if SeparatorInField(a) then WrongFieldCount else Parsed(Trimmed(a))
  {
    var b := Trimmed(a);
    LineBodyTrimmed(a);
    TrimmedKeepsFields(a);
    LineBodyStripped(b);
    assert ParseLine(LineBody(a)) == ParseLine(LineBody(b));
    if SeparatorInField(a) {
      SeparatorInFieldSplitsLine(b);
    } else {
      LineRoundTrip(b);
    }
  }

  /** The outcomes of the written lines, and of the empty piece after the last line break. */
  lemma OutcomesOfBodies(arts: seq<Articulo>)
    requires forall i :: 0 <= i < |arts| ==> BreakFree(arts[i])
    ensures Outcomes(Bodies(arts) + [""]) == WrittenOutcomes(arts) + [Blank]
  {
    forall i | 0 <= i < |arts| {
      WrittenLineOutcome(arts[i]);
    }
    assert Strip("") == [];
  }

  /** The written lines followed by one blank line collect to the loadable articles. */
  lemma {:induction false} CollectParsed(arts: seq<Articulo>)
    ensures Collect(WrittenOutcomes(arts) + [Blank]) == Loaded(Loadable(arts), false)
  {
    var os := WrittenOutcomes(arts) + [Blank];
    if arts == [] {
      assert os == [Blank] && os[1..] == [];
    } else {
      assert os[1..] == WrittenOutcomes(arts[1..]) + [Blank];
      CollectParsed(arts[1..]);
    }
  }

  /**
   * Loading the file written for articles without line breaks in their fields
   * yields, in the order they were written, those with no separator inside a
   * field as `strip()` leaves them, and nothing interrupts the load. For articles
   * on one line each, these are exactly the serialisable ones, unchanged.
   */
  lemma DatabaseLoad(arts: seq<Articulo>)
    requires forall i :: 0 <= i < |arts| ==> BreakFree(arts[i])
    ensures ParseDatabase(SerializeDatabase(arts)) == Loaded(Loadable(arts), false)
    ensures (forall i :: 0 <= i < |arts| ==> OnOneLine(arts[i])) ==> ParseDatabase(SerializeDatabase(arts)) == Loaded(Kept(arts), false)
  {
    SerializeHasNoCarriageReturn(arts);
    SplitSerialized(arts);
    OutcomesOfBodies(arts);
    CollectParsed(arts);
    if forall i :: 0 <= i < |arts| ==> OnOneLine(arts[i]) {
      LoadableOnOneLine(arts);
    }
  }

  /**
   * Loading the file written for serialisable articles yields exactly those
   * articles, in the order they were written, without interruption.
   */
  lemma DatabaseRoundTrip(arts: seq<Articulo>)
    requires forall i :: 0 <= i < |arts| ==> Serializable(arts[i])
    ensures ParseDatabase(SerializeDatabase(arts)) == Loaded(arts, false)
  {
    DatabaseLoad(arts);
    KeptAll(arts);
  }

  /**
   * A line whose year `int()` rejects ends the load: the records of the lines
   * before it are kept, those after it are never read.
   */
  lemma LoadStopsAtBadYear(before: seq<string>, bad: string, after: seq<string>)
    requires !ParseLines(before).interrumpida
    requires ParseLine(bad) == BadYear
    ensures ParseLines(before + [bad] + after) == Loaded(ParseLines(before).registros, true)
  {
    OutcomesAppend(before, [bad]);
    OutcomesAppend(before + [bad], after);
    assert Outcomes([bad]) == [BadYear];
    CollectStopsAtBadYear(Outcomes(before), Outcomes(after));
  }

  lemma OutcomesAppend(a: seq<string>, b: seq<string>)
    ensures Outcomes(a + b) == Outcomes(a) + Outcomes(b)
  {
    var os := Outcomes(a + b);
    forall i | 0 <= i < |os| ensures os[i] == (Outcomes(a) + Outcomes(b))[i] {
      if i >= |a| {
        assert (a + b)[i] == b[i - |a|];
      }
    }
  }

  lemma {:induction false} CollectStopsAtBadYear(before: seq<LineOutcome>, after: seq<LineOutcome>)
    requires !Collect(before).interrumpida
    ensures Collect(before + [BadYear] + after) == Loaded(Collect(before).registros, true)
  {
    var os := before + [BadYear] + after;
    if before == [] {
      assert os[0] == BadYear;
    } else {
      assert os[0] == before[0];
      assert os[1..] == before[1..] + [BadYear] + after;
      CollectStopsAtBadYear(before[1..], after);
    }
  }

  /** Blank and malformed lines are skipped wherever they stand. */
  lemma SkippedLineChangesNothing(line: string, rest: seq<string>)
    requires ParseLine(line) == Blank || ParseLine(line) == WrongFieldCount
    ensures ParseLines([line] + rest) == ParseLines(rest)
  {
    var os := Outcomes([line] + rest);
    assert os[0] == Blank || os[0] == WrongFieldCount by {
      assert os[0] == ParseLine(line);
    }
    assert os[1..] == Outcomes(rest);
    assert Collect(os) == Collect(os[1..]);
  }

  /** No text field of a loaded article contains the separator. */
  lemma {:induction false} CollectedFieldsHaveNoSeparator(lines: seq<string>)
    ensures forall a :: a in ParseLines(lines).registros ==>
      '|' !in a.hashId && '|' !in a.titulo && '|' !in a.autores && '|' !in a.archivoNombre
  {
    var os := Outcomes(lines);
    CollectFrom(os);
    forall a | a in ParseLines(lines).registros
      ensures '|' !in a.hashId && '|' !in a.titulo && '|' !in a.autores && '|' !in a.archivoNombre
    {
      var i :| 0 <= i < |os| && os[i] == Parsed(a);
      ParsedFieldsHaveNoSeparator(lines[i], a);
    }
  }

  /** The text fields of a parsed line are pieces of a split on `|`, so contain none. */
  lemma ParsedFieldsHaveNoSeparator(line: string, a: Articulo)
    requires ParseLine(line) == Parsed(a)
    ensures '|' !in a.hashId && '|' !in a.titulo && '|' !in a.autores && '|' !in a.archivoNombre
  {
    var partes := Split(Strip(line), '|');
    assert a.hashId == partes[0] && a.titulo == partes[1] && a.autores == partes[2] && a.archivoNombre == partes[4];
  }

  /** Every collected record is the article of one of the outcomes. */
  lemma {:induction false} CollectFrom(os: seq<LineOutcome>)
    ensures forall a :: a in Collect(os).registros ==> exists i :: 0 <= i < |os| && os[i] == Parsed(a)
  {
    if os != [] {
      CollectFrom(os[1..]);
      forall a | a in Collect(os).registros ensures exists i :: 0 <= i < |os| && os[i] == Parsed(a) {
        if os[0] != Parsed(a) {
          var i :| 0 <= i < |os[1..]| && os[1..][i] == Parsed(a);
          assert os[i + 1] == Parsed(a);
        }
      }
    }
  }

  /** The separators of a line: the four between fields and those inside the fields. */
  lemma LineBodySeparators(a: Articulo)
    ensures CountChar(LineBody(a), '|')
         == 4 + CountChar(a.hashId, '|') + CountChar(a.titulo, '|') + CountChar(a.autores, '|') + CountChar(a.archivoNombre, '|')
  {
    var y := IntToString(a.anio);
    YearFieldOk(a.anio);
    var fs := [a.hashId, a.titulo, a.autores, y, a.archivoNombre];
    JoinSeparators(fs, '|');
    assert CountChar(y, '|') == 0;
    assert fs[4..] == [a.archivoNombre] && fs[4..][1..] == [];
    assert CountInAll(fs[4..], '|') == CountChar(a.archivoNombre, '|');
    assert fs[3..][1..] == fs[4..];
    assert CountInAll(fs[3..], '|') == CountChar(a.archivoNombre, '|');
    assert fs[2..][1..] == fs[3..];
    assert CountInAll(fs[2..], '|') == CountChar(a.autores, '|') + CountChar(a.archivoNombre, '|');
    assert fs[1..][1..] == fs[2..];
    assert CountInAll(fs[1..], '|') == CountChar(a.titulo, '|') + CountChar(a.autores, '|') + CountChar(a.archivoNombre, '|');
    assert CountInAll(fs, '|') == CountChar(a.hashId, '|') + CountInAll(fs[1..], '|');
    assert LineBody(a) == Join(fs, '|');
  }

  /**
   * A record with '|' inside a text field gives a line with more than five
   * fields. The ends of the line are as `agregar_articulo` makes them (a digest
   * and a file name that the line's `strip()` leaves alone).
   */
  lemma SeparatorInFieldSplitsLine(a: Articulo)
    requires a.hashId == [] || !IsSpace(a.hashId[0])
    requires a.archivoNombre == [] || !IsSpace(a.archivoNombre[|a.archivoNombre| - 1])
    requires SeparatorInField(a)
    ensures ParseLine(LineBody(a)) == WrongFieldCount
  {
    LineBodyStripped(a);
    LineBodySeparators(a);
    SplitLength(LineBody(a), '|');
  }

  /**
   * A record with '|' inside a text field is lost by the next load: its line
   * is skipped, while the load goes on with the lines after it.
   */
  lemma SeparatorInFieldDropsRecord(arts: seq<Articulo>, a: Articulo)
    requires forall i :: 0 <= i < |arts| ==> BreakFree(arts[i])
    requires a in arts && SeparatorInField(a)
    ensures var cargado := ParseDatabase(SerializeDatabase(arts));
            && !cargado.interrumpida
            && a !in cargado.registros
  {
    DatabaseLoad(arts);
  }
}

=== FILE: fnv.dfy ===
/**
 * The content digest of the record store: 32-bit FNV-1 (Fowler-Noll-Vo) over the
 * bytes of an article's text, rendered as a decimal string. FNV-1 multiplies the
 * accumulator by the prime before it XORs the next byte in (FNV-1a does the reverse).
 */
module Fnv {
  import opened Text

  const FNV_PRIME: nat := 16777619
  const FNV_OFFSET_BASIS: nat := 2166136261
  const TWO_32: nat := 0x1_0000_0000

  /** The inverse of FNV_PRIME modulo 2^32: FNV_PRIME * FNV_PRIME_INVERSE == 3513497 * 2^32 + 1. */
  const FNV_PRIME_INVERSE: nat := 899433627

  /** Python's `^` on non-negative integers, computed bit by bit from the least significant. */
  function BitXor(x: nat, y: nat): nat
    decreases x + y
  {
    if x == 0 && y == 0 then 0
    else 2 * BitXor(x / 2, y / 2) + (if x % 2 == y % 2 then 0 else 1)
  }

  function Pow2(n: nat): (p: nat)
    ensures p >= 1
  {
    if n == 0 then 1 else 2 * Pow2(n - 1)
  }

  lemma Pow2Of32()
    ensures Pow2(32) == TWO_32 && Pow2(8) == 256
  {
    assert Pow2(8) == 256;
    assert Pow2(16) == 65536;
    assert Pow2(24) == 16777216;
  }

  /** XOR of two n-bit numbers is an n-bit number. */
  lemma {:induction false} BitXorBound(x: nat, y: nat, n: nat)
    requires x < Pow2(n) && y < Pow2(n)
    ensures BitXor(x, y) < Pow2(n)
  {
    if n > 0 && (x != 0 || y != 0) {
      BitXorBound(x / 2, y / 2, n - 1);
    }
  }

  lemma {:induction false} BitXorZero(x: nat)
    ensures BitXor(x, 0) == x
  {
    if x != 0 {
      BitXorZero(x / 2);
    }
  }

  lemma {:induction false} BitXorCommutes(x: nat, y: nat)
    ensures BitXor(x, y) == BitXor(y, x)
    decreases x + y
  {
    if x != 0 || y != 0 {
      BitXorCommutes(x / 2, y / 2);
    }
  }

  /** XOR-ing the same value twice restores the original. */
  lemma {:induction false} BitXorInvolution(x: nat, y: nat)
    ensures BitXor(BitXor(x, y), y) == x
    decreases x + y
  {
    var z := BitXor(x, y);
    if y == 0 {
      BitXorZero(x);
      BitXorZero(z);
    } else {
      BitXorInvolution(x / 2, y / 2);
      assert z / 2 == BitXor(x / 2, y / 2);
    }
  }

  /** `h ^ b` on a 32-bit accumulator and a byte stays within 32 bits. */
  function Xor(h: nat, b: byte): (r: nat)
    requires h < TWO_32
    ensures r < TWO_32
  {
    Pow2Of32();
    BitXorBound(h, b, 32);
    BitXor(h, b)
  }

  /** One round of FNV-1: multiply by the prime modulo 2^32, then XOR the byte in. */
  function Step(h: nat, b: byte): (r: nat)
    requires h < TWO_32
    ensures r < TWO_32
  {
    Xor((h * FNV_PRIME) % TWO_32, b)
  }

  /** The accumulator after consuming `s` in order, starting from the offset basis. */
  function Fnv1(s: seq<byte>): (h: nat)
    ensures h < TWO_32
  {
    if s == [] then FNV_OFFSET_BASIS else Step(Fnv1(s[..|s| - 1]), s[|s| - 1])
  }

  /** The digest of a content: the FNV-1 accumulator in decimal, as `str()` renders it. */
  function Digest(s: seq<byte>): string
  {
    NatToDecimal(Fnv1(s))
  }

  /** `calcular_hash_fnv1`: the accumulator loop over the UTF-8 bytes of the text, then `str()`. */
  method CalcularHashFnv1(contenido: string) returns (digest: string)
    ensures digest == Digest(Utf8(contenido))
    ensures AllDigits(digest) && DecimalValue(digest) < TWO_32
  {
    var bytes := Utf8(contenido);
    var hashValue: nat := FNV_OFFSET_BASIS;
    for i := 0 to |bytes|
      invariant hashValue == Fnv1(bytes[..i])
    {
      assert bytes[..i + 1][..i] == bytes[..i];
      hashValue := (hashValue * FNV_PRIME) % TWO_32;
      hashValue := Xor(hashValue, bytes[i]);
    }
    assert bytes[..|bytes|] == bytes;
    digest := NatToDecimal(hashValue);
    DecimalRoundTrip(hashValue);
  }

  /** Empty content digests to the offset basis. */
  lemma EmptyDigest()
    ensures Digest(Utf8("")) == "2166136261"
  {
    var n, text := 2166136261, "2166136261";
    assert Digest(Utf8("")) == NatToDecimal(n);
    assert NatToDecimal(2) == "2";
    DecimalAppend(21, "2", '1');
    DecimalAppend(216, "21", '6');
    DecimalAppend(2166, "216", '6');
    DecimalAppend(21661, "2166", '1');
    DecimalAppend(216613, "21661", '3');
    DecimalAppend(2166136, "216613", '6');
    DecimalAppend(21661362, "2166136", '2');
    DecimalAppend(216613626, "21661362", '6');
    DecimalAppend(n, "216613626", '1');
  }

  /** One more digit on the right of a decimal rendering. */
  lemma DecimalAppend(n: nat, prefix: string, last: char)
    requires n >= 10 && NatToDecimal(n / 10) == prefix
    requires last as int == '0' as int + n % 10
    ensures NatToDecimal(n) == prefix + [last]
  {
  }

  /** XOR with a fixed byte is injective in the accumulator. */
  lemma XorInjective(g: nat, h: nat, b: byte)
    requires g < TWO_32 && h < TWO_32
    requires Xor(g, b) == Xor(h, b)
    ensures g == h
  {
    BitXorInvolution(g, b);
    BitXorInvolution(h, b);
  }

  /** XOR into a fixed accumulator is injective in the byte. */
  lemma XorInjectiveInByte(h: nat, a: byte, b: byte)
    requires h < TWO_32
    requires Xor(h, a) == Xor(h, b)
    ensures a == b
  {
    BitXorCommutes(h, a);
    BitXorCommutes(h, b);
    BitXorInvolution(a, h);
    BitXorInvolution(b, h);
  }

  /** Multiplying by the prime modulo 2^32 is undone by multiplying by its inverse. */
  lemma MultiplyByPrimeUndone(g: nat)
    requires g < TWO_32
    ensures (((g * FNV_PRIME) % TWO_32) * FNV_PRIME_INVERSE) % TWO_32 == g
  {
    var q := (g * 16777619) / 0x1_0000_0000;
    var x := (g * 16777619) % 0x1_0000_0000;
    assert g * 16777619 == q * 0x1_0000_0000 + x;
    var m := g * 3513497 - q * 899433627;
    assert x * 899433627 == g + m * 0x1_0000_0000;
    AddMultipleMod(g, m);
  }

  /** Adding a multiple of 2^32 does not change a residue below 2^32. */
  lemma AddMultipleMod(g: int, m: int)
    requires 0 <= g < TWO_32
    ensures (g + m * TWO_32) % TWO_32 == g
  {
    var d := (g + m * TWO_32) / TWO_32;
    var r := (g + m * TWO_32) % TWO_32;
    assert g - r == (d - m) * TWO_32;
  }

  /** A round is injective in the accumulator: it never merges two distinct states. */
  lemma StepInjective(g: nat, h: nat, b: byte)
    requires g < TWO_32 && h < TWO_32
    requires Step(g, b) == Step(h, b)
    ensures g == h
  {
    XorInjective((g * FNV_PRIME) % TWO_32, (h * FNV_PRIME) % TWO_32, b);
    MultiplyByPrimeUndone(g);
    MultiplyByPrimeUndone(h);
  }

  /** Two contents that differ only in their last byte have different digests. */
  lemma LastByteChangesFnv1(s: seq<byte>, a: byte, b: byte)
    requires a != b
    ensures Fnv1(s + [a]) != Fnv1(s + [b])
  {
    assert (s + [a])[..|s|] == s && (s + [b])[..|s|] == s;
    if Fnv1(s + [a]) == Fnv1(s + [b]) {
      XorInjectiveInByte((Fnv1(s) * FNV_PRIME) % TWO_32, a, b);
    }
  }

  /**
   * Two contents of the same length that differ in exactly one byte have different
   * accumulators: replacing any single byte of an article is always detected.
   */
  lemma {:induction false} SingleByteChangeChangesFnv1(p: seq<byte>, a: byte, b: byte, q: seq<byte>)
    requires a != b
    ensures Fnv1(p + [a] + q) != Fnv1(p + [b] + q)
  {
    if q == [] {
      assert p + [a] + q == p + [a] && p + [b] + q == p + [b];
      LastByteChangesFnv1(p, a, b);
    } else {
      var q' := q[..|q| - 1];
      var last := q[|q| - 1];
      var sa, sb := p + [a] + q, p + [b] + q;
      assert sa[..|sa| - 1] == p + [a] + q' && sa[|sa| - 1] == last;
      assert sb[..|sb| - 1] == p + [b] + q' && sb[|sb| - 1] == last;
      SingleByteChangeChangesFnv1(p, a, b, q');
      if Fnv1(sa) == Fnv1(sb) {
        StepInjective(Fnv1(p + [a] + q'), Fnv1(p + [b] + q'), last);
      }
    }
  }

  /** The same holds of the digest strings, which are the store's primary keys. */
  lemma SingleByteChangeChangesDigest(p: seq<byte>, a: byte, b: byte, q: seq<byte>)
    requires a != b
    ensures Digest(p + [a] + q) != Digest(p + [b] + q)
  {
    SingleByteChangeChangesFnv1(p, a, b, q);
    if Digest(p + [a] + q) == Digest(p + [b] + q) {
      NatToDecimalInjective(Fnv1(p + [a] + q), Fnv1(p + [b] + q));
    }
  }
}

=== FILE: gestor.dfy ===
/**
 * `GestorArticulos`: the record store. A primary hash table maps each article's
 * digest to its record; two secondary indexes file the records by lower-cased
 * authors and by year; every change is followed by a rewrite of the database
 * file, and each article's text is kept in a file named after its digest.
 */
module Gestor {
  import opened Wrappers
  import opened Text
  import opened Fnv
  import opened Sorting
  import opened HashTables
  import opened Articulos
  import opened Codec
  import opened Indices

  /** The number of buckets of the primary table. */
  const TABLE_SIZE: nat := 200

  /** What an operation reports; the source pairs a success flag with a message. */
  datatype Resultado = Exito | Duplicado | NoEncontrado | ErrorArchivo

  /** The name under which an article's text is copied: its digest, then ".txt". */
  function NombreArchivo(hashId: string): (r: string)
    ensures |r| == |hashId| + 4
    ensures r[..|hashId|] == hashId && r[|hashId|..] == ".txt"
  {
    hashId + ".txt"
  }

  /** Different digests get different file names, so one copy never overwrites another article's text. */
  lemma NombreArchivoInjective(h1: string, h2: string)
    requires NombreArchivo(h1) == NombreArchivo(h2)
    ensures h1 == h2
  {
    assert |h1| == |h2|;
    assert h1 == NombreArchivo(h1)[..|h1|];
  }

  /** Whether the new author of `modificar_articulo` is truthy: given and not empty. */
  predicate AutorDado(nuevoAutor: Option<string>)
  {
    nuevoAutor.Some? && nuevoAutor.value != []
  }

  /** Whether the new year of `modificar_articulo` is truthy: given and not zero. */
  predicate AnioDado(nuevoAnio: Option<int>)
  {
    nuevoAnio.Some? && nuevoAnio.value != 0
  }

  /** The record `modificar_articulo` makes: only truthy new values replace the old ones. */
  function Modificado(a: Articulo, nuevoAutor: Option<string>, nuevoAnio: Option<int>): (r: Articulo)
    ensures r.hashId == a.hashId && r.titulo == a.titulo && r.archivoNombre == a.archivoNombre
    ensures r.autores == if AutorDado(nuevoAutor) then nuevoAutor.value else a.autores
    ensures r.anio == if AnioDado(nuevoAnio) then nuevoAnio.value else a.anio
  {
    var conAutor := if AutorDado(nuevoAutor) then a.(autores := nuevoAutor.value) else a;
    if AnioDado(nuevoAnio) then conAutor.(anio := nuevoAnio.value) else conAutor
  }

  /** The listing of a digest-keyed table holds each of its records exactly once. */
  lemma ListingOnce(t: seq<seq<(string, Articulo)>>, hash: string -> int, c: map<string, Articulo>)
    requires |t| > 0 && Represents(t, hash, c) && Keyed(c)
    ensures forall x :: multiset(AllValues(t))[x] == if Live(c, x) then 1 else 0
  {
    assert forall k :: k in c ==> DigestKey(c[k]) == k;
    ValuesOnceEach(t, hash, c, DigestKey);
    forall x ensures multiset(AllValues(t))[x] == if Live(c, x) then 1 else 0 {
      assert DigestKey(x) == x.hashId;
    }
  }

  /** Every record of the listing of a digest-keyed table is serialisable when every stored record is. */
  lemma ListingSerializable(t: seq<seq<(string, Articulo)>>, hash: string -> int, c: map<string, Articulo>)
    requires |t| > 0 && Represents(t, hash, c) && Keyed(c)
    requires forall d :: d in c ==> Serializable(c[d])
    ensures forall i :: 0 <= i < |AllValues(t)| ==> Serializable(AllValues(t)[i])
  {
    var vs := AllValues(t);
    ListingOnce(t, hash, c);
    forall i | 0 <= i < |vs| ensures Serializable(vs[i]) {
      assert multiset(vs)[vs[i]] > 0;
    }
  }

  /** Loading records into an empty store leaves the table their records map. */
  lemma LoadIntoEmpty(rs: seq<Articulo>)
    ensures LoadAll(Empty(), rs).tabla == RecordsMap(rs)
  {
    assert map[] + RecordsMap(rs) == RecordsMap(rs);
  }

  /**
   * Saving a store whose records are all serialisable and loading the file into
   * an empty store gives back the same table, with consistent indexes.
   */
  lemma SaveLoadRoundTrip(t: seq<seq<(string, Articulo)>>, hash: string -> int, c: map<string, Articulo>)
    requires |t| > 0 && Represents(t, hash, c) && Keyed(c)
    requires forall d :: d in c ==> Serializable(c[d])
    ensures var cargado := ParseDatabase(SerializeDatabase(AllValues(t)));
            && !cargado.interrumpida
            && LoadAll(Empty(), cargado.registros).tabla == c
  {
    var vs := AllValues(t);
    ListingSerializable(t, hash, c);
    DatabaseRoundTrip(vs);
    assert ParseDatabase(SerializeDatabase(vs)) == Loaded(vs, false);
    ListingOnce(t, hash, c);
    RecordsMapOfListing(c, vs);
    LoadIntoEmpty(vs);
  }

  class GestorArticulos {
    const tabla: HashTable<string, Articulo>
    var indiceAutores: map<string, seq<Articulo>>
    var indiceAnios: map<int, seq<Articulo>>
    /** The text of the database file, None while the file does not exist. */
    var baseDatos: Option<string>
    /** The article directory: the text held in each file, by file name. */
    var cuerpos: map<string, string>

    /** The table is well formed, keyed by digest, and both indexes agree with it. */
    ghost predicate Valid()
      reads this, tabla, tabla.table
    {
      tabla.Valid() && Consistent(tabla.Contents, indiceAutores, indiceAnios)
    }

    /** The table's abstract value with both indexes. */
    ghost function Estado(): Indexed
      reads this, tabla
    {
      Indexed(tabla.Contents, indiceAutores, indiceAnios)
    }

    /**
     * `GestorArticulos()`: an empty table of 200 buckets and empty indexes, then
     * `cargar_base_datos`. `hash` is the string hash of the running interpreter.
     */
    constructor (hash: string -> int, baseDatos: Option<string>, cuerpos: map<string, string>)
      ensures Valid() && fresh(tabla) && fresh(tabla.table)
      ensures tabla.size == TABLE_SIZE
      ensures this.baseDatos == baseDatos && this.cuerpos == cuerpos
      ensures baseDatos.None? ==> Estado() == Empty()
      ensures baseDatos.Some? ==> Estado() == LoadAll(Empty(), ParseDatabase(baseDatos.value).registros)
    {
      tabla := new HashTable(TABLE_SIZE, hash);
      indiceAutores := map[];
      indiceAnios := map[];
      this.baseDatos := baseDatos;
      this.cuerpos := cuerpos;
      new;
      CargarBaseDatos();
    }

    /**
     * `cargar_base_datos`: inserts the records of the database file in order and
     * files each under both indexes; nothing happens when there is no file. A
     * record whose digest is already present replaces it and is unfiled first
     * (see Findings in README.md).
     */
    method CargarBaseDatos()
      requires Valid()
      modifies this, tabla, tabla.table
      ensures Valid()
      ensures baseDatos.None? ==> Estado() == old(Estado())
      ensures baseDatos.Some? ==> Estado() == LoadAll(old(Estado()), ParseDatabase(baseDatos.value).registros)
      ensures baseDatos == old(baseDatos) && cuerpos == old(cuerpos)
    {
      if baseDatos.None? {
        return;
      }
      var registros := ParseDatabase(baseDatos.value).registros;
      ghost var inicial := Estado();
      for i := 0 to |registros|
        invariant Valid()
        invariant Estado() == LoadAll(inicial, registros[..i])
        invariant baseDatos == old(baseDatos) && cuerpos == old(cuerpos)
      {
        LoadAllPrefix(inicial, registros, i);
        Archivar(registros[i]);
      }
      assert registros[..|registros|] == registros;
    }

    /**
     * Stores `x` under its digest and files it under both indexes, unfiling
     * first the record it replaces, if any: the step of a load, of
     * `agregar_articulo` once the digest is known to be new, and of
     * `modificar_articulo` once the record is found.
     */
    method Archivar(x: Articulo)
      requires Valid()
      modifies this, tabla, tabla.table
      ensures Valid()
      ensures Estado() == LoadStep(old(Estado()), x)
      ensures tabla.count == if x.hashId in old(tabla.Contents) then old(tabla.count) else old(tabla.count) + 1
      ensures x.hashId in old(tabla.Contents) ==> Overwritten(old(tabla.table[..]), tabla.table[..], tabla.Index(x.hashId), x.hashId, x)
      ensures x.hashId !in old(tabla.Contents) ==> Appended(old(tabla.table[..]), tabla.table[..], tabla.Index(x.hashId), x.hashId, x)
      ensures baseDatos == old(baseDatos) && cuerpos == old(cuerpos)
    {
      ghost var destino := LoadStep(Estado(), x);
      Reindexar(x);
      tabla.Insert(x.hashId, x);
      assert Estado() == destino;
    }

    /** The index half of `Archivar`: the indexes become those of `LoadStep`, the table is left alone. */
    method Reindexar(x: Articulo)
      requires Valid()
      modifies this
      ensures indiceAutores == LoadStep(old(Estado()), x).autores
      ensures indiceAnios == LoadStep(old(Estado()), x).anios
      ensures baseDatos == old(baseDatos) && cuerpos == old(cuerpos)
    {
      var previo := tabla.Get(x.hashId);
      indiceAutores := Refiled(indiceAutores, AutoresKey, previo, x);
      indiceAnios := Refiled(indiceAnios, AnioKey, previo, x);
    }

    /** `guardar_base_datos`: rewrites the database file with one line per record, in listing order. */
    method GuardarBaseDatos()
      requires Valid()
      modifies this
      ensures Valid() && Estado() == old(Estado())
      ensures baseDatos == Some(SerializeDatabase(tabla.Values()))
      ensures cuerpos == old(cuerpos)
    {
      var articulos := tabla.GetAllValues();
      var texto := "";
      for i := 0 to |articulos|
        invariant texto == SerializeDatabase(articulos[..i])
      {
        assert articulos[..i + 1][..i] == articulos[..i];
        texto := texto + FormatLine(articulos[i]);
      }
      assert articulos[..|articulos|] == articulos;
      baseDatos := Some(texto);
    }

    /**
     * `agregar_articulo`: `lectura` is the text of the chosen file (None when it
     * cannot be read) and `escrituraOk` whether copying it into the article
     * directory succeeds. The digest of the text is the new record's key; an
     * existing digest is refused as a duplicate.
     */
    method AgregarArticulo(titulo: string, autores: string, anio: int, lectura: Option<string>, escrituraOk: bool)
      returns (r: Resultado)
      requires Valid()
      modifies this, tabla, tabla.table
      ensures Valid()
      ensures r == Exito || r == Duplicado || r == ErrorArchivo
      ensures r != Exito ==> Estado() == old(Estado()) && tabla.table[..] == old(tabla.table[..])
                              && tabla.count == old(tabla.count) && cuerpos == old(cuerpos) && baseDatos == old(baseDatos)
      ensures lectura.None? ==> r == ErrorArchivo
      ensures lectura.Some? ==>
        var contenido := NormalizeNewlines(lectura.value);
        var d := Digest(Utf8(contenido));
        var nuevo := Articulo(d, titulo, autores, anio, NombreArchivo(d));
        && (r == Duplicado <==> d in old(tabla.Contents))
        && (r == ErrorArchivo <==> d !in old(tabla.Contents) && !escrituraOk)
        && (r == Exito <==> d !in old(tabla.Contents) && escrituraOk)
        && (r == Exito ==>
              && Estado() == LoadStep(old(Estado()), nuevo)
              && tabla.Contents == old(tabla.Contents)[d := nuevo]
              && Appended(old(tabla.table[..]), tabla.table[..], tabla.Index(d), d, nuevo)
              && tabla.count == old(tabla.count) + 1
              && cuerpos == old(cuerpos)[NombreArchivo(d) := contenido]
              && baseDatos == Some(SerializeDatabase(tabla.Values())))
    {
      if lectura.None? {
        return ErrorArchivo;
      }
      var contenido := NormalizeNewlines(lectura.value);
      var hashId := CalcularHashFnv1(contenido);
      if tabla.Exists(hashId) {
        return Duplicado;
      }
      var archivoNombre := NombreArchivo(hashId);
      if !escrituraOk {
        return ErrorArchivo;
      }
      Archivar(Articulo(hashId, titulo, autores, anio, archivoNombre));
      cuerpos := cuerpos[archivoNombre := contenido];
      GuardarBaseDatos();
      return Exito;
    }

    /**
     * `modificar_articulo`: unfiles the record, applies the truthy new values
     * in place, files it again under its new keys and saves.
     */
    method ModificarArticulo(hashId: string, nuevoAutor: Option<string>, nuevoAnio: Option<int>)
      returns (r: Resultado)
      requires Valid()
      modifies this, tabla, tabla.table
      ensures Valid()
      ensures r == Exito || r == NoEncontrado
      ensures r == NoEncontrado <==> hashId !in old(tabla.Contents)
      ensures r == NoEncontrado ==> Estado() == old(Estado()) && tabla.table[..] == old(tabla.table[..]) && baseDatos == old(baseDatos)
      ensures r == Exito ==>
        var nuevo := Modificado(old(tabla.Contents)[hashId], nuevoAutor, nuevoAnio);
        && Estado() == LoadStep(old(Estado()), nuevo)
        && tabla.Contents == old(tabla.Contents)[hashId := nuevo]
        && Overwritten(old(tabla.table[..]), tabla.table[..], tabla.Index(hashId), hashId, nuevo)
        && tabla.count == old(tabla.count)
        && baseDatos == Some(SerializeDatabase(tabla.Values()))
      ensures cuerpos == old(cuerpos)
    {
      var encontrado := tabla.Get(hashId);
      if encontrado.None? {
        return NoEncontrado;
      }
      var nuevo := Modificado(encontrado.value, nuevoAutor, nuevoAnio);
      Archivar(nuevo);
      GuardarBaseDatos();
      return Exito;
    }

    /**
     * `eliminar_articulo`: deletes the article's text file, unfiles the record,
     * removes it from the table and saves.
     */
    method EliminarArticulo(hashId: string) returns (r: Resultado)
      requires Valid()
      modifies this, tabla, tabla.table
      ensures Valid()
      ensures r == Exito || r == NoEncontrado
      ensures r == NoEncontrado <==> hashId !in old(tabla.Contents)
      ensures r == NoEncontrado ==> Estado() == old(Estado()) && tabla.table[..] == old(tabla.table[..])
                                    && cuerpos == old(cuerpos) && baseDatos == old(baseDatos)
      ensures r == Exito ==>
        && Estado() == DeleteStep(old(Estado()), hashId)
        && tabla.Contents == old(tabla.Contents) - {hashId}
        && Removed(old(tabla.table[..]), tabla.table[..], tabla.Index(hashId), hashId)
        && tabla.count == old(tabla.count) - 1
        && cuerpos == old(cuerpos) - {old(tabla.Contents)[hashId].archivoNombre}
        && baseDatos == Some(SerializeDatabase(tabla.Values()))
    {
      var encontrado := tabla.Get(hashId);
      if encontrado.None? {
        return NoEncontrado;
      }
      var articulo := encontrado.value;
      cuerpos := cuerpos - {articulo.archivoNombre};
      ghost var destino := DeleteStep(Estado(), hashId);
      indiceAutores := Unfiled(indiceAutores, AutoresKey, articulo);
      indiceAnios := Unfiled(indiceAnios, AnioKey, articulo);
      var _ := tabla.Delete(hashId);
      assert Estado() == destino;
      GuardarBaseDatos();
      return Exito;
    }

    /**
     * `buscar_por_autor`: the records whose lower-cased authors equal the
     * lower-cased query, each once, sorted by lower-cased title.
     */
    function BuscarPorAutor(autor: string): (r: seq<Articulo>)
      reads this, tabla, tabla.table
      requires Valid()
      ensures SortedBy(r, TituloKey)
      ensures forall x :: multiset(r)[x] == if Live(tabla.Contents, x) && AutoresKey(x) == Lower(autor) then 1 else 0
    {
      BucketCounts(tabla.Contents, indiceAutores, AutoresKey, Lower(autor));
      SortBy(Bucket(indiceAutores, Lower(autor)), TituloKey)
    }

    /** The search ignores the case of the query: an already lower-cased query finds the same records. */
    lemma BuscarPorAutorIgnoraMayusculas(autor: string)
      requires Valid()
      ensures BuscarPorAutor(Lower(autor)) == BuscarPorAutor(autor)
    {
      LowerIdempotent(autor);
    }

    /** `buscar_por_año`: the records of year `anio`, each once, sorted by lower-cased title. */
    function BuscarPorAnio(anio: int): (r: seq<Articulo>)
      reads this, tabla, tabla.table
      requires Valid()
      ensures SortedBy(r, TituloKey)
      ensures forall x :: multiset(r)[x] == if Live(tabla.Contents, x) && AnioKey(x) == anio then 1 else 0
    {
      BucketCounts(tabla.Contents, indiceAnios, AnioKey, anio);
      SortBy(Bucket(indiceAnios, anio), TituloKey)
    }

    /** `listar_por_titulo`: every record once, sorted by lower-cased title. */
    method ListarPorTitulo() returns (r: seq<Articulo>)
      requires Valid()
      ensures SortedBy(r, TituloKey)
      ensures forall x :: multiset(r)[x] == if Live(tabla.Contents, x) then 1 else 0
      ensures |r| == tabla.count
    {
      var articulos := tabla.GetAllValues();
      ValuesOnceEach(tabla.table[..], tabla.hash, tabla.Contents, DigestKey);
      r := SortBy(articulos, TituloKey);
    }

    /** `listar_por_autor`: every record once, sorted by lower-cased authors. */
    method ListarPorAutor() returns (r: seq<Articulo>)
      requires Valid()
      ensures SortedBy(r, AutoresKey)
      ensures forall x :: multiset(r)[x] == if Live(tabla.Contents, x) then 1 else 0
      ensures |r| == tabla.count
    {
      var articulos := tabla.GetAllValues();
      ValuesOnceEach(tabla.table[..], tabla.hash, tabla.Contents, DigestKey);
      r := SortBy(articulos, AutoresKey);
    }
  }
}

=== FILE: hashtable.dfy ===
/**
 * `HashTable`: a chained hash table with a fixed number of buckets. Bucket `i`
 * is a list of (key, value) pairs whose keys hash to `i`; `count` tracks how
 * many pairs are stored. The ghost map `Contents` is the table's abstract value.
 */
module HashTables {
  import opened Wrappers

  /** `_hash`: the bucket of `key` among `n` buckets, `hash(key) % n` (Python's `%` agrees with Dafny's for n > 0). */
  function Slot<K>(hash: K -> int, n: nat, key: K): (i: nat)
    requires n > 0
    ensures i < n
  {
    hash(key) % n
  }

  /** Some pair of the bucket has key `key`. */
  ghost predicate KeyIn<K, V>(bucket: seq<(K, V)>, key: K)
  {
    exists j :: 0 <= j < |bucket| && bucket[j].0 == key
  }

  /**
   * The buckets `t` store exactly the map `c`: each pair sits in its key's bucket and
   * agrees with `c`, no key occurs twice in a bucket, and every key of `c` is stored.
   */
  ghost predicate Represents<K, V>(t: seq<seq<(K, V)>>, hash: K -> int, c: map<K, V>)
    requires |t| > 0
  {
    Placed(t, hash, c) && Distinct(t) && Stored(t, hash, c)
  }

  /** Each pair sits in its key's bucket and agrees with `c`. */
  ghost predicate Placed<K, V>(t: seq<seq<(K, V)>>, hash: K -> int, c: map<K, V>)
    requires |t| > 0
  {
    forall i, j :: 0 <= i < |t| && 0 <= j < |t[i]| ==>
      Slot(hash, |t|, t[i][j].0) == i && t[i][j].0 in c && c[t[i][j].0] == t[i][j].1
  }

  /** No key occurs twice in a bucket. */
  ghost predicate Distinct<K, V>(t: seq<seq<(K, V)>>)
  {
    forall i, j, j' :: 0 <= i < |t| && 0 <= j < j' < |t[i]| ==> t[i][j].0 != t[i][j'].0
  }

  /** Every key of `c` is stored in its bucket. */
  ghost predicate Stored<K, V>(t: seq<seq<(K, V)>>, hash: K -> int, c: map<K, V>)
    requires |t| > 0
  {
    forall k :: k in c ==> KeyIn(t[Slot(hash, |t|, k)], k)
  }

  /** `after` is `before` with the pair of `key` in bucket `i` overwritten by `(key, value)` where it stands. */
  ghost predicate Overwritten<K, V>(before: seq<seq<(K, V)>>, after: seq<seq<(K, V)>>, i: nat, key: K, value: V)
  {
    i < |before|
    && exists p :: 0 <= p < |before[i]| && before[i][p].0 == key && after == before[i := before[i][p := (key, value)]]
  }

  /** `after` is `before` with `(key, value)` appended to the end of bucket `i`. */
  ghost predicate Appended<K, V>(before: seq<seq<(K, V)>>, after: seq<seq<(K, V)>>, i: nat, key: K, value: V)
  {
    i < |before| && after == before[i := before[i] + [(key, value)]]
  }

  /** `after` is `before` with the pair of `key` cut out of bucket `i`, the rest of the bucket in order. */
  ghost predicate Removed<K, V>(before: seq<seq<(K, V)>>, after: seq<seq<(K, V)>>, i: nat, key: K)
  {
    i < |before|
    && exists p :: 0 <= p < |before[i]| && before[i][p].0 == key && after == before[i := before[i][..p] + before[i][p + 1..]]
  }

  /** The value of the first pair with `key` in a bucket, scanning from the front. */
  function FindValue<K(==), V>(bucket: seq<(K, V)>, key: K): (r: Option<V>)
    ensures r.None? <==> !KeyIn(bucket, key)
    ensures r.Some? ==> exists j :: 0 <= j < |bucket| && bucket[j] == (key, r.value)
  {
    if bucket == [] then None
    else if bucket[0].0 == key then Some(bucket[0].1)
    else
      var r := FindValue(bucket[1..], key);
      assert KeyIn(bucket, key) ==> KeyIn(bucket[1..], key) by {
        if KeyIn(bucket, key) {
          var j :| 0 <= j < |bucket| && bucket[j].0 == key;
          assert bucket[1..][j - 1].0 == key;
        }
      }
      assert r.Some? ==> exists j :: 0 <= j < |bucket| && bucket[j] == (key, r.value) by {
        if r.Some? {
          var j :| 0 <= j < |bucket[1..]| && bucket[1..][j] == (key, r.value);
          assert bucket[j + 1] == (key, r.value);
        }
      }
      r
  }

  /** The number of pairs in all buckets. */
  function TotalPairs<K, V>(t: seq<seq<(K, V)>>): nat
  {
    if t == [] then 0 else TotalPairs(t[..|t| - 1]) + |t[|t| - 1]|
  }

  /** Replacing one bucket changes the pair count by the difference in that bucket's length. */
  lemma {:induction false} TotalPairsUpdate<K, V>(t: seq<seq<(K, V)>>, i: nat, b: seq<(K, V)>)
    requires i < |t|
    ensures TotalPairs(t[i := b]) == TotalPairs(t) - |t[i]| + |b|
    ensures TotalPairs(t) >= |t[i]|
  {
    var n := |t| - 1;
    if i < n {
      assert t[i := b][..n] == t[..n][i := b];
      TotalPairsUpdate(t[..n], i, b);
    } else {
      assert t[i := b][..n] == t[..n];
    }
  }

  lemma {:induction false} TotalPairsEmpty<K, V>(t: seq<seq<(K, V)>>)
    requires forall i :: 0 <= i < |t| ==> t[i] == []
    ensures TotalPairs(t) == 0
  {
    if t != [] {
      TotalPairsEmpty(t[..|t| - 1]);
    }
  }

  /** The values of one bucket, in order. */
  function BucketValues<K, V>(bucket: seq<(K, V)>): seq<V>
  {
    seq(|bucket|, j requires 0 <= j < |bucket| => bucket[j].1)
  }

  /** What `get_all_values()` returns: the values of bucket 0, then of bucket 1, and so on. */
  function AllValues<K, V>(t: seq<seq<(K, V)>>): (vs: seq<V>)
    ensures |vs| == TotalPairs(t)
  {
    if t == [] then [] else AllValues(t[..|t| - 1]) + BucketValues(t[|t| - 1])
  }

  /** Every stored value appears in the listing. */
  lemma {:induction false} AllValuesContains<K, V>(t: seq<seq<(K, V)>>, i: nat, j: nat)
    requires i < |t| && j < |t[i]|
    ensures t[i][j].1 in AllValues(t)
  {
    var n := |t| - 1;
    if i < n {
      assert t[..n][i] == t[i];
      AllValuesContains(t[..n], i, j);
    } else {
      assert BucketValues(t[n])[j] == t[i][j].1;
    }
  }

  /** Every value in the listing is the value of a stored pair. */
  lemma {:induction false} AllValuesFrom<K, V>(t: seq<seq<(K, V)>>, v: V)
    requires v in AllValues(t)
    ensures exists i, j :: 0 <= i < |t| && 0 <= j < |t[i]| && t[i][j].1 == v
  {
    var n := |t| - 1;
    if v in AllValues(t[..n]) {
      AllValuesFrom(t[..n], v);
      var i, j :| 0 <= i < n && 0 <= j < |t[..n][i]| && t[..n][i][j].1 == v;
      assert t[i][j].1 == v;
    } else {
      var j :| 0 <= j < |BucketValues(t[n])| && BucketValues(t[n])[j] == v;
      assert t[n][j].1 == v;
    }
  }

  /** A sequence whose elements have pairwise distinct keys holds each element once. */
  lemma {:induction false} DistinctKeysOnce<K, V>(vs: seq<V>, keyOf: V -> K)
    requires forall j, j' :: 0 <= j < j' < |vs| ==> keyOf(vs[j]) != keyOf(vs[j'])
    ensures forall v :: multiset(vs)[v] == if v in vs then 1 else 0
  {
    if vs != [] {
      var n := |vs| - 1;
      DistinctKeysOnce(vs[..n], keyOf);
      assert vs == vs[..n] + [vs[n]];
      assert vs[n] !in vs[..n];
    }
  }

  /** The values of bucket `i` are the stored values whose keys hash to `i`, once each. */
  lemma BucketValuesOnce<K, V>(t: seq<seq<(K, V)>>, hash: K -> int, c: map<K, V>, keyOf: V -> K, i: nat)
    requires |t| > 0 && Represents(t, hash, c) && i < |t|
    requires forall k :: k in c ==> keyOf(c[k]) == k
    ensures forall v :: multiset(BucketValues(t[i]))[v]
                        == if keyOf(v) in c && c[keyOf(v)] == v && Slot(hash, |t|, keyOf(v)) == i then 1 else 0
  {
    var b := t[i];
    var vs := BucketValues(b);
    assert forall j :: 0 <= j < |vs| ==> keyOf(vs[j]) == b[j].0;
    DistinctKeysOnce(vs, keyOf);
    forall v ensures v in vs <==> keyOf(v) in c && c[keyOf(v)] == v && Slot(hash, |t|, keyOf(v)) == i {
      if keyOf(v) in c && c[keyOf(v)] == v && Slot(hash, |t|, keyOf(v)) == i {
        var j :| 0 <= j < |b| && b[j].0 == keyOf(v);
        assert vs[j] == v;
      }
    }
  }

  /** The listing of the first `n` buckets holds the stored values of those buckets, once each. */
  lemma {:induction false} PrefixValuesOnce<K, V>(t: seq<seq<(K, V)>>, hash: K -> int, c: map<K, V>, keyOf: V -> K, n: nat)
    requires |t| > 0 && Represents(t, hash, c) && n <= |t|
    requires forall k :: k in c ==> keyOf(c[k]) == k
    ensures forall v :: multiset(AllValues(t[..n]))[v]
                        == if keyOf(v) in c && c[keyOf(v)] == v && Slot(hash, |t|, keyOf(v)) < n then 1 else 0
  {
    if n > 0 {
      PrefixValuesOnce(t, hash, c, keyOf, n - 1);
      BucketValuesOnce(t, hash, c, keyOf, n - 1);
      assert t[..n][..n - 1] == t[..n - 1] && t[..n][n - 1] == t[n - 1];
    }
  }

  /**
   * When every stored value names its own key, the listing holds each stored
   * value exactly once and nothing else.
   */
  lemma ValuesOnceEach<K, V>(t: seq<seq<(K, V)>>, hash: K -> int, c: map<K, V>, keyOf: V -> K)
    requires |t| > 0 && Represents(t, hash, c)
    requires forall k :: k in c ==> keyOf(c[k]) == k
    ensures forall v :: multiset(AllValues(t))[v] == if keyOf(v) in c && c[keyOf(v)] == v then 1 else 0
  {
    PrefixValuesOnce(t, hash, c, keyOf, |t|);
    assert t[..|t|] == t;
  }

  /** Overwriting the pair of an existing key in place stores the updated map. */
  lemma ReplacePreservesRepresents<K, V>(t: seq<seq<(K, V)>>, hash: K -> int, c: map<K, V>, key: K, value: V, p: nat)
    requires |t| > 0 && Represents(t, hash, c)
    requires p < |t[Slot(hash, |t|, key)]| && t[Slot(hash, |t|, key)][p].0 == key
    ensures Represents(t[Slot(hash, |t|, key) := t[Slot(hash, |t|, key)][p := (key, value)]], hash, c[key := value])
  {
    var idx := Slot(hash, |t|, key);
    var t' := t[idx := t[idx][p := (key, value)]];
    var c' := c[key := value];
    forall k | k in c' ensures KeyIn(t'[Slot(hash, |t'|, k)], k) {
      if k == key {
        assert t'[idx][p].0 == key;
      } else {
        var j :| 0 <= j < |t[Slot(hash, |t|, k)]| && t[Slot(hash, |t|, k)][j].0 == k;
        assert t'[Slot(hash, |t'|, k)][j].0 == k;
      }
    }
  }

  /** Appending a pair for an absent key to its bucket stores the extended map. */
  lemma AppendPreservesRepresents<K, V>(t: seq<seq<(K, V)>>, hash: K -> int, c: map<K, V>, key: K, value: V)
    requires |t| > 0 && Represents(t, hash, c)
    requires key !in c
    ensures Represents(t[Slot(hash, |t|, key) := t[Slot(hash, |t|, key)] + [(key, value)]], hash, c[key := value])
  {
    var idx := Slot(hash, |t|, key);
    var t' := t[idx := t[idx] + [(key, value)]];
    var c' := c[key := value];
    forall k | k in c' ensures KeyIn(t'[Slot(hash, |t'|, k)], k) {
      if k == key {
        assert t'[idx][|t[idx]|].0 == key;
      } else {
        var j :| 0 <= j < |t[Slot(hash, |t|, k)]| && t[Slot(hash, |t|, k)][j].0 == k;
        assert t'[Slot(hash, |t'|, k)][j].0 == k;
      }
    }
  }

  /** Deleting the pair of a key from its bucket stores the map without that key. */
  lemma RemovePreservesRepresents<K, V>(t: seq<seq<(K, V)>>, hash: K -> int, c: map<K, V>, key: K, p: nat)
    requires |t| > 0 && Represents(t, hash, c)
    requires p < |t[Slot(hash, |t|, key)]| && t[Slot(hash, |t|, key)][p].0 == key
    ensures Represents(t[Slot(hash, |t|, key) := t[Slot(hash, |t|, key)][..p] + t[Slot(hash, |t|, key)][p + 1..]], hash, c - {key})
  {
    RemoveKeepsPlaced(t, hash, c, key, p);
    RemoveKeepsDistinct(t, hash, key, p);
    RemoveKeepsStored(t, hash, c, key, p);
  }

  /** After the removal every remaining pair still sits in its bucket and agrees with the smaller map. */
  lemma RemoveKeepsPlaced<K, V>(t: seq<seq<(K, V)>>, hash: K -> int, c: map<K, V>, key: K, p: nat)
    requires |t| > 0 && Represents(t, hash, c)
    requires p < |t[Slot(hash, |t|, key)]| && t[Slot(hash, |t|, key)][p].0 == key
    ensures Placed(t[Slot(hash, |t|, key) := t[Slot(hash, |t|, key)][..p] + t[Slot(hash, |t|, key)][p + 1..]], hash, c - {key})
  {
    var idx := Slot(hash, |t|, key);
    var b := t[idx];
    var b' := b[..p] + b[p + 1..];
    var t': seq<seq<(K, V)>> := t[idx := b'];
    var c' := c - {key};
    assert |t'| == |t|;
    forall i: int, j: int | 0 <= i < |t'| && 0 <= j < |t'[i]|
      ensures Slot(hash, |t'|, t'[i][j].0) == i && t'[i][j].0 in c' && c'[t'[i][j].0] == t'[i][j].1
    {
      if i == idx {
        var jj := if j < p then j else j + 1;
        assert t'[i][j] == b[jj];
        assert jj != p;
      } else {
        assert t'[i][j] == t[i][j];
      }
    }
  }

  /** Removing a pair cannot make two keys of a bucket equal. */
  lemma RemoveKeepsDistinct<K, V>(t: seq<seq<(K, V)>>, hash: K -> int, key: K, p: nat)
    requires |t| > 0 && Distinct(t)
    requires p < |t[Slot(hash, |t|, key)]|
    ensures Distinct(t[Slot(hash, |t|, key) := t[Slot(hash, |t|, key)][..p] + t[Slot(hash, |t|, key)][p + 1..]])
  {
    var idx := Slot(hash, |t|, key);
    var b := t[idx];
    var b' := b[..p] + b[p + 1..];
    var t': seq<seq<(K, V)>> := t[idx := b'];
    forall i: int, j: int, j': int | 0 <= i < |t'| && 0 <= j < j' < |t'[i]| ensures t'[i][j].0 != t'[i][j'].0 {
      if i == idx {
        var jj := if j < p then j else j + 1;
        var jj' := if j' < p then j' else j' + 1;
        assert t'[i][j] == b[jj] && t'[i][j'] == b[jj'] && jj < jj';
      } else {
        assert t'[i] == t[i];
      }
    }
  }

  /** Every key but the removed one is still found in its bucket. */
  lemma RemoveKeepsStored<K, V>(t: seq<seq<(K, V)>>, hash: K -> int, c: map<K, V>, key: K, p: nat)
    requires |t| > 0 && Represents(t, hash, c)
    requires p < |t[Slot(hash, |t|, key)]| && t[Slot(hash, |t|, key)][p].0 == key
    ensures Stored(t[Slot(hash, |t|, key) := t[Slot(hash, |t|, key)][..p] + t[Slot(hash, |t|, key)][p + 1..]], hash, c - {key})
  {
    var idx := Slot(hash, |t|, key);
    var b := t[idx];
    var b' := b[..p] + b[p + 1..];
    var t': seq<seq<(K, V)>> := t[idx := b'];
    var c' := c - {key};
    forall k | k in c' ensures KeyIn(t'[Slot(hash, |t'|, k)], k) {
      var j :| 0 <= j < |t[Slot(hash, |t|, k)]| && t[Slot(hash, |t|, k)][j].0 == k;
      if Slot(hash, |t|, k) == idx {
        assert j != p;
        if j < p {
          assert b'[j] == b[j];
        } else {
          assert b'[j - 1] == b[j];
        }
      } else {
        assert t'[Slot(hash, |t'|, k)][j].0 == k;
      }
    }
  }

  class HashTable<K(==), V> {
    const size: nat
    const hash: K -> int
    const table: array<seq<(K, V)>>
    var count: nat
    ghost var Contents: map<K, V>

    /** The bucket index of `key`. */
    function Index(key: K): (i: nat)
      requires size > 0
      ensures i < size
    {
      Slot(hash, size, key)
    }

    ghost predicate Valid()
      reads this, table
    {
      && size > 0
      && table.Length == size
      && Represents(table[..], hash, Contents)
      && count == TotalPairs(table[..])
    }

    /** The values of all pairs, bucket by bucket. */
    ghost function Values(): seq<V>
      reads this, table
    {
      AllValues(table[..])
    }

    /** `HashTable(size)`: `size` empty buckets and a count of 0. */
    constructor (size: nat, hash: K -> int)
      requires size > 0
      ensures Valid() && fresh(table)
      ensures this.size == size && this.hash == hash
      ensures Contents == map[] && count == 0
      ensures forall i :: 0 <= i < size ==> table[i] == []
    {
      this.size := size;
      this.hash := hash;
      table := new seq<(K, V)>[size](_ => []);
      count := 0;
      Contents := map[];
      new;
      TotalPairsEmpty(table[..]);
    }

    /**
     * `insert`: overwrites the pair of an existing key where it stands, with `count`
     * unchanged; otherwise appends the pair to the key's bucket and counts it.
     */
    method Insert(key: K, value: V)
      requires Valid()
      modifies this, table
      ensures Valid()
      ensures Contents == old(Contents)[key := value]
      ensures key in old(Contents) ==> count == old(count) && Overwritten(old(table[..]), table[..], Index(key), key, value)
      ensures key !in old(Contents) ==> count == old(count) + 1 && Appended(old(table[..]), table[..], Index(key), key, value)
    {
      var idx := Index(key);
      var bucket := table[idx];
      var i := 0;
      while i < |bucket|
        invariant 0 <= i <= |bucket|
        invariant forall j :: 0 <= j < i ==> bucket[j].0 != key
      {
        if bucket[i].0 == key {
          ReplacePreservesRepresents(table[..], hash, Contents, key, value, i);
          TotalPairsUpdate(table[..], idx, bucket[i := (key, value)]);
          table[idx] := bucket[i := (key, value)];
          Contents := Contents[key := value];
          assert table[..] == old(table[..])[idx := bucket[i := (key, value)]];
          return;
        }
        i := i + 1;
      }
      assert !KeyIn(bucket, key);
      AppendPreservesRepresents(table[..], hash, Contents, key, value);
      TotalPairsUpdate(table[..], idx, bucket + [(key, value)]);
      table[idx] := bucket + [(key, value)];
      count := count + 1;
      Contents := Contents[key := value];
      assert table[..] == old(table[..])[idx := bucket + [(key, value)]];
    }

    /** `get`: the value stored with `key`, or None. */
    function Get(key: K): (r: Option<V>)
      reads this, table
      requires Valid()
      ensures r == MapGet(Contents, key)
    {
      FindValue(table[Index(key)], key)
    }

    /** `exists`: whether `get` finds a value for `key`. */
    function Exists(key: K): (b: bool)
      reads this, table
      requires Valid()
      ensures b <==> key in Contents
    {
      Get(key).Some?
    }

    /**
     * `delete`: removes the pair of `key` and reports True, decrementing `count`;
     * reports False and changes nothing when `key` is absent.
     */
    method Delete(key: K) returns (removed: bool)
      requires Valid()
      modifies this, table
      ensures Valid()
      ensures removed <==> key in old(Contents)
      ensures Contents == old(Contents) - {key}
      ensures count == if removed then old(count) - 1 else old(count)
      ensures removed ==> Removed(old(table[..]), table[..], Index(key), key)
      ensures !removed ==> table[..] == old(table[..])
    {
      var idx := Index(key);
      var bucket := table[idx];
      var i := 0;
      while i < |bucket|
        invariant 0 <= i <= |bucket|
        invariant forall j :: 0 <= j < i ==> bucket[j].0 != key
      {
        if bucket[i].0 == key {
          var rest := bucket[..i] + bucket[i + 1..];
          RemovePreservesRepresents(table[..], hash, Contents, key, i);
          TotalPairsUpdate(table[..], idx, rest);
          table[idx] := rest;
          count := count - 1;
          Contents := Contents - {key};
          assert table[..] == old(table[..])[idx := rest];
          return true;
        }
        i := i + 1;
      }
      assert !KeyIn(bucket, key);
      assert Contents - {key} == Contents;
      return false;
    }

    /** `get_all_values`: the values of every bucket in bucket order, as many as `count`. */
    method GetAllValues() returns (values: seq<V>)
      requires Valid()
      ensures values == Values()
      ensures |values| == count
    {
      values := [];
      var i := 0;
      while i < table.Length
        invariant 0 <= i <= table.Length
        invariant values == AllValues(table[..i])
      {
        var bucket := table[i];
        var j := 0;
        while j < |bucket|
          invariant 0 <= j <= |bucket|
          invariant values == AllValues(table[..i]) + BucketValues(bucket[..j])
        {
          assert BucketValues(bucket[..j + 1]) == BucketValues(bucket[..j]) + [bucket[j].1];
          values := values + [bucket[j].1];
          j := j + 1;
        }
        assert bucket[..j] == bucket;
        assert table[..i + 1][..i] == table[..i];
        i := i + 1;
      }
      assert table[..i] == table[..];
    }
  }
}

=== FILE: indices.dfy ===
/**
 * The secondary indexes of the store: `defaultdict(list)` maps from a key (the
 * lower-cased authors, or the year) to the list of articles filed under it,
 * kept in step with the primary table by `agregar_articulo`,
 * `modificar_articulo`, `eliminar_articulo` and `cargar_base_datos`.
 */
module Indices {
  import opened Wrappers
  import opened Text
  import opened Articulos

  /** `indice.get(k, [])`: the articles filed under `k`. */
  function Bucket<K(!new)>(m: map<K, seq<Articulo>>, k: K): seq<Articulo>
  {
    if k in m then m[k] else []
  }

  /** `indice[k].append(a)` on a defaultdict, where a missing key starts as an empty list. */
  function AppendTo<K(!new)>(m: map<K, seq<Articulo>>, k: K, a: Articulo): (r: map<K, seq<Articulo>>)
    ensures k in r && Bucket(r, k) == Bucket(m, k) + [a]
    ensures multiset(Bucket(r, k)) == multiset(Bucket(m, k)) + multiset{a}
    ensures forall k' :: k' != k ==> Bucket(r, k') == Bucket(m, k')
  {
    m[k := Bucket(m, k) + [a]]
  }

  /** The position of the first element equal to `a`. */
  function FirstIndex(s: seq<Articulo>, a: Articulo): (i: nat)
    requires a in s
    ensures i < |s| && s[i] == a && a !in s[..i]
  {
    if s[0] == a then 0
    else
      var j := FirstIndex(s[1..], a);
      assert s[..j + 1] == [s[0]] + s[1..][..j];
      j + 1
  }

  /** `s.remove(a)`: drops the first element equal to `a`, keeping the order of the rest. */
  function RemoveFirst(s: seq<Articulo>, a: Articulo): (r: seq<Articulo>)
    requires a in s
    ensures exists i :: 0 <= i < |s| && s[i] == a && a !in s[..i] && r == s[..i] + s[i + 1..]
    ensures multiset(r) == multiset(s) - multiset{a}
    ensures |r| == |s| - 1
  {
    var i := FirstIndex(s, a);
    assert s == s[..i] + [s[i]] + s[i + 1..];
    s[..i] + s[i + 1..]
  }

  /** `indice[k].remove(a)`, guarded as the store guards it by `k in indice`. */
  function RemoveAt<K(!new)>(m: map<K, seq<Articulo>>, k: K, a: Articulo): (r: map<K, seq<Articulo>>)
    requires k in m && a in m[k]
    ensures k in r && multiset(Bucket(r, k)) == multiset(Bucket(m, k)) - multiset{a}
    ensures forall k' :: k' != k ==> Bucket(r, k') == Bucket(m, k')
  {
    m[k := RemoveFirst(m[k], a)]
  }

  /**
   * `if key(a) in indice: indice[key(a)].remove(a)`; a record that is not in the
   * list is left alone here, where `list.remove` would raise.
   */
  function Unfiled<K(!new)>(m: map<K, seq<Articulo>>, key: Articulo -> K, a: Articulo): (r: map<K, seq<Articulo>>)
    ensures key(a) in m && a in m[key(a)] ==> multiset(Bucket(r, key(a))) == multiset(Bucket(m, key(a))) - multiset{a}
    ensures !(key(a) in m && a in m[key(a)]) ==> r == m
    ensures forall k' :: k' != key(a) ==> Bucket(r, k') == Bucket(m, k')
  {
    if key(a) in m && a in m[key(a)] then RemoveAt(m, key(a), a) else m
  }

  /** `x` is the record the table holds under its own digest. */
  ghost predicate Live(c: map<string, Articulo>, x: Articulo)
  {
    x.hashId in c && c[x.hashId] == x
  }

  /** Every record of the table is stored under its own digest. */
  ghost predicate Keyed(c: map<string, Articulo>)
  {
    forall d :: d in c ==> c[d].hashId == d
  }

  /**
   * The index `m` files every record of the table exactly once, under its key,
   * and holds nothing else.
   */
  ghost predicate IndexOf<K(!new)>(c: map<string, Articulo>, m: map<K, seq<Articulo>>, key: Articulo -> K)
  {
    forall k, x :: FiledOnce(c, m, key, k, x)
  }

  /** Under `k`, the index holds `x` once if `x` is a record of the table with that key, else not at all. */
  ghost predicate FiledOnce<K(!new)>(c: map<string, Articulo>, m: map<K, seq<Articulo>>, key: Articulo -> K, k: K, x: Articulo)
  {
    multiset(Bucket(m, k))[x] == if Live(c, x) && key(x) == k then 1 else 0
  }

  /** The invariant of the store: the table is keyed by digest and both indexes agree with it. */
  ghost predicate Consistent(c: map<string, Articulo>, ia: map<string, seq<Articulo>>, iy: map<int, seq<Articulo>>)
  {
    Keyed(c) && IndexOf(c, ia, AutoresKey) && IndexOf(c, iy, AnioKey)
  }

  /** The records filed under one key: those of the table with that key, once each. */
  lemma BucketCounts<K(!new)>(c: map<string, Articulo>, m: map<K, seq<Articulo>>, key: Articulo -> K, k: K)
    requires IndexOf(c, m, key)
    ensures forall x :: multiset(Bucket(m, k))[x] == if Live(c, x) && key(x) == k then 1 else 0
  {
    forall x ensures multiset(Bucket(m, k))[x] == if Live(c, x) && key(x) == k then 1 else 0 {
      assert FiledOnce(c, m, key, k, x);
    }
  }

  /** A record of the table is filed in the index under its key. */
  lemma LiveIsFiled<K(!new)>(c: map<string, Articulo>, m: map<K, seq<Articulo>>, key: Articulo -> K, x: Articulo)
    requires IndexOf(c, m, key) && Live(c, x)
    ensures key(x) in m && x in m[key(x)]
  {
    assert FiledOnce(c, m, key, key(x), x);
  }

  /** The count of `y` under `k` after filing `x`, given its count before. */
  lemma IndexAddAt<K(!new)>(c: map<string, Articulo>, m: map<K, seq<Articulo>>, key: Articulo -> K, x: Articulo, k: K, y: Articulo)
    requires x.hashId !in c
    requires FiledOnce(c, m, key, k, y)
    ensures FiledOnce(c[x.hashId := x], AppendTo(m, key(x), x), key, k, y)
  {
    var m' := AppendTo(m, key(x), x);
    assert multiset(Bucket(m', k))[y] == multiset(Bucket(m, k))[y] + (if k == key(x) && y == x then 1 else 0) by {
      if k != key(x) {
        assert Bucket(m', k) == Bucket(m, k);
      }
    }
    LiveWith(c, x, y);
  }

  /** With a fresh digest set to `x`, the live records are the old ones and `x`. */
  lemma LiveWith(c: map<string, Articulo>, x: Articulo, y: Articulo)
    requires x.hashId !in c
    ensures Live(c[x.hashId := x], y) == (Live(c, y) || y == x)
    ensures Live(c, y) ==> y != x
  {
    if y.hashId == x.hashId {
      assert !Live(c, y);
    } else {
      assert Live(c[x.hashId := x], y) == Live(c, y);
    }
  }

  /** Filing a record with a fresh digest keeps the index in step with the extended table. */
  lemma IndexAdd<K(!new)>(c: map<string, Articulo>, m: map<K, seq<Articulo>>, key: Articulo -> K, x: Articulo)
    requires IndexOf(c, m, key) && x.hashId !in c
    ensures IndexOf(c[x.hashId := x], AppendTo(m, key(x), x), key)
  {
    var c', m' := c[x.hashId := x], AppendTo(m, key(x), x);
    forall k, y ensures FiledOnce(c', m', key, k, y) {
      IndexAddAt(c, m, key, x, k, y);
    }
  }

  /** The count of `y` under `k` after unfiling `x`, given its count before. */
  lemma IndexRemoveAt<K(!new)>(c: map<string, Articulo>, m: map<K, seq<Articulo>>, key: Articulo -> K, x: Articulo, k: K, y: Articulo)
    requires Live(c, x) && key(x) in m && x in m[key(x)]
    requires FiledOnce(c, m, key, k, y)
    ensures FiledOnce(c - {x.hashId}, RemoveAt(m, key(x), x), key, k, y)
  {
    var m' := RemoveAt(m, key(x), x);
    assert multiset(Bucket(m', k))[y] == multiset(Bucket(m, k))[y] - (if k == key(x) && y == x then 1 else 0) by {
      if k != key(x) {
        assert Bucket(m', k) == Bucket(m, k);
      }
    }
    LiveWithout(c, x, y);
  }

  /** Without the digest of `x`, exactly the records other than `x` stay live. */
  lemma LiveWithout(c: map<string, Articulo>, x: Articulo, y: Articulo)
    requires Live(c, x)
    ensures Live(c - {x.hashId}, y) == (Live(c, y) && y != x)
  {
    if y.hashId == x.hashId {
      assert !Live(c - {x.hashId}, y);
    } else {
      assert Live(c - {x.hashId}, y) == Live(c, y);
    }
  }

  /** Unfiling a record of the table keeps the index in step with the table without it. */
  lemma IndexRemove<K(!new)>(c: map<string, Articulo>, m: map<K, seq<Articulo>>, key: Articulo -> K, x: Articulo)
    requires IndexOf(c, m, key) && Live(c, x)
    requires key(x) in m && x in m[key(x)]
    ensures IndexOf(c - {x.hashId}, RemoveAt(m, key(x), x), key)
  {
    var c' := c - {x.hashId};
    var m' := RemoveAt(m, key(x), x);
    forall k, y ensures FiledOnce(c', m', key, k, y) {
      IndexRemoveAt(c, m, key, x, k, y);
    }
    assert IndexOf(c', m', key);
  }

  /** Refiling a record under its updated keys keeps the index in step with the updated table. */
  lemma IndexReplace<K(!new)>(c: map<string, Articulo>, m: map<K, seq<Articulo>>, key: Articulo -> K, x: Articulo, y: Articulo)
    requires IndexOf(c, m, key) && Live(c, x) && y.hashId == x.hashId
    requires key(x) in m && x in m[key(x)]
    ensures IndexOf(c[x.hashId := y], AppendTo(RemoveAt(m, key(x), x), key(y), y), key)
  {
    var c' := c - {x.hashId};
    IndexRemove(c, m, key, x);
    IndexAdd(c', RemoveAt(m, key(x), x), key, y);
    RemoveThenSet(c, x.hashId, y);
  }

  /** Removing a key and then setting it is the same as setting it. */
  lemma RemoveThenSet(c: map<string, Articulo>, d: string, v: Articulo)
    ensures (c - {d})[d := v] == c[d := v]
  {
  }

  /** `agregar_articulo` on the indexes: a record with a new digest is filed under both keys. */
  lemma AddKeepsConsistent(c: map<string, Articulo>, ia: map<string, seq<Articulo>>, iy: map<int, seq<Articulo>>, x: Articulo)
    requires Consistent(c, ia, iy) && x.hashId !in c
    ensures Consistent(c[x.hashId := x], AppendTo(ia, AutoresKey(x), x), AppendTo(iy, AnioKey(x), x))
  {
    IndexAdd(c, ia, AutoresKey, x);
    IndexAdd(c, iy, AnioKey, x);
  }

  /** `eliminar_articulo` on the indexes: the record leaves both indexes and the table. */
  lemma DeleteKeepsConsistent(c: map<string, Articulo>, ia: map<string, seq<Articulo>>, iy: map<int, seq<Articulo>>, x: Articulo)
    requires Consistent(c, ia, iy) && Live(c, x)
    requires AutoresKey(x) in ia && x in ia[AutoresKey(x)]
    requires AnioKey(x) in iy && x in iy[AnioKey(x)]
    ensures Consistent(c - {x.hashId}, RemoveAt(ia, AutoresKey(x), x), RemoveAt(iy, AnioKey(x), x))
  {
    IndexRemove(c, ia, AutoresKey, x);
    IndexRemove(c, iy, AnioKey, x);
  }

  /**
   * `modificar_articulo` on the indexes: the old record is unfiled from both
   * indexes, and the updated record, with the same digest, filed under its new keys.
   */
  lemma ReplaceKeepsConsistent(c: map<string, Articulo>, ia: map<string, seq<Articulo>>, iy: map<int, seq<Articulo>>, x: Articulo, y: Articulo)
    requires Consistent(c, ia, iy) && Live(c, x) && y.hashId == x.hashId
    requires AutoresKey(x) in ia && x in ia[AutoresKey(x)]
    requires AnioKey(x) in iy && x in iy[AnioKey(x)]
    ensures Consistent(c[x.hashId := y],
                       AppendTo(RemoveAt(ia, AutoresKey(x), x), AutoresKey(y), y),
                       AppendTo(RemoveAt(iy, AnioKey(x), x), AnioKey(y), y))
  {
    IndexReplace(c, ia, AutoresKey, x, y);
    IndexReplace(c, iy, AnioKey, x, y);
  }

  // ---------------------------------------------------------------- loading

  /** The table's abstract value together with both indexes. */
  datatype Indexed = Indexed(tabla: map<string, Articulo>, autores: map<string, seq<Articulo>>, anios: map<int, seq<Articulo>>)

  ghost predicate ConsistentState(s: Indexed)
  {
    Consistent(s.tabla, s.autores, s.anios)
  }

  /** The state of a store with nothing in it. */
  function Empty(): (s: Indexed)
    ensures ConsistentState(s)
  {
    Indexed(map[], map[], map[])
  }

  /**
   * One loaded record as `cargar_base_datos` handles it: inserted into the table,
   * which overwrites a record with the same digest, and appended to both indexes,
   * which keep the overwritten record filed: no list loses an entry, and the
   * record closes the lists of its two keys.
   */
  function LoadStepAsWritten(s: Indexed, x: Articulo): (r: Indexed)
    ensures r.tabla == s.tabla[x.hashId := x]
    ensures forall k :: Bucket(s.autores, k) <= Bucket(r.autores, k)
    ensures forall k :: Bucket(s.anios, k) <= Bucket(r.anios, k)
    ensures Bucket(r.autores, AutoresKey(x)) == Bucket(s.autores, AutoresKey(x)) + [x]
    ensures Bucket(r.anios, AnioKey(x)) == Bucket(s.anios, AnioKey(x)) + [x]
  {
    Indexed(s.tabla[x.hashId := x], AppendTo(s.autores, AutoresKey(x), x), AppendTo(s.anios, AnioKey(x), x))
  }

  /**
   * Two different lines with the same digest: after the second, the table holds
   * only the second record, yet the first is still filed under its authors and
   * its year, so the indexes no longer agree with the table.
   */
  lemma DuplicateDigestLeavesStaleEntry(first: Articulo, second: Articulo)
    requires first.hashId == second.hashId && first != second
    ensures var s := LoadStepAsWritten(LoadStepAsWritten(Empty(), first), second);
            && s.tabla == map[first.hashId := second]
            && first in Bucket(s.autores, AutoresKey(first))
            && first in Bucket(s.anios, AnioKey(first))
            && !ConsistentState(s)
  {
    var s1 := LoadStepAsWritten(Empty(), first);
    var s := LoadStepAsWritten(s1, second);
    assert s.tabla == map[first.hashId := second];
    assert first in Bucket(s1.autores, AutoresKey(first));
    assert first in Bucket(s.autores, AutoresKey(first)) by {
      assert multiset(Bucket(s.autores, AutoresKey(first))) == multiset(Bucket(s1.autores, AutoresKey(first))) + (if AutoresKey(first) == AutoresKey(second) then multiset{second} else multiset{});
    }
    assert first in Bucket(s.anios, AnioKey(first)) by {
      assert multiset(Bucket(s.anios, AnioKey(first))) == multiset(Bucket(s1.anios, AnioKey(first))) + (if AnioKey(first) == AnioKey(second) then multiset{second} else multiset{});
    }
    assert !Live(s.tabla, first);
    assert !FiledOnce(s.tabla, s.anios, AnioKey, AnioKey(first), first);
  }

  /**
   * One loaded record handled so that the indexes stay in step: a record the
   * table already holds under the same digest is unfiled before the new one is
   * inserted and filed.
   */
  function LoadStep(s: Indexed, x: Articulo): (r: Indexed)
    requires ConsistentState(s)
    ensures ConsistentState(r)
    ensures r.tabla == s.tabla[x.hashId := x]
  {
    var previo := MapGet(s.tabla, x.hashId);
    var r := Indexed(s.tabla[x.hashId := x], Refiled(s.autores, AutoresKey, previo, x), Refiled(s.anios, AnioKey, previo, x));
    if x.hashId in s.tabla then
      var prev := s.tabla[x.hashId];
      LiveIsFiled(s.tabla, s.autores, AutoresKey, prev);
      LiveIsFiled(s.tabla, s.anios, AnioKey, prev);
      ReplaceKeepsConsistent(s.tabla, s.autores, s.anios, prev, x);
      r
    else
      AddKeepsConsistent(s.tabla, s.autores, s.anios, x);
      r
  }

  /**
   * `eliminar_articulo` on the state: the record stored under `d` is unfiled
   * from both indexes and leaves the table.
   */
  function DeleteStep(s: Indexed, d: string): (r: Indexed)
    requires ConsistentState(s) && d in s.tabla
    ensures ConsistentState(r)
    ensures r.tabla == s.tabla - {d}
  {
    var x := s.tabla[d];
    LiveIsFiled(s.tabla, s.autores, AutoresKey, x);
    LiveIsFiled(s.tabla, s.anios, AnioKey, x);
    DeleteKeepsConsistent(s.tabla, s.autores, s.anios, x);
    Indexed(s.tabla - {d}, Unfiled(s.autores, AutoresKey, x), Unfiled(s.anios, AnioKey, x))
  }

  /**
   * One index after storing `x`: the record `previo` it replaces, if any, is
   * removed from the list of its key, then `x` is appended to the list of its own.
   */
  function Refiled<K(!new)>(m: map<K, seq<Articulo>>, key: Articulo -> K, previo: Option<Articulo>, x: Articulo): map<K, seq<Articulo>>
  {
    var sin := if previo.Some? then Unfiled(m, key, previo.value) else m;
    AppendTo(sin, key(x), x)
  }

  /** Loading one more record of a run is one more step after loading those before it. */
  lemma LoadAllPrefix(s: Indexed, rs: seq<Articulo>, i: nat)
    requires ConsistentState(s) && i < |rs|
    ensures LoadAll(s, rs[..i + 1]) == LoadStep(LoadAll(s, rs[..i]), rs[i])
  {
    assert rs[..i + 1][..i] == rs[..i];
  }

  /** The table a run of records leaves when inserted in order: the last record of each digest wins. */
  function RecordsMap(rs: seq<Articulo>): map<string, Articulo>
  {
    if rs == [] then map[] else RecordsMap(rs[..|rs| - 1])[rs[|rs| - 1].hashId := rs[|rs| - 1]]
  }

  /** Setting a key after a merge is setting it in the right-hand map. */
  lemma MergeThenSet(a: map<string, Articulo>, b: map<string, Articulo>, d: string, v: Articulo)
    ensures (a + b)[d := v] == a + b[d := v]
  {
  }

  /** Loading `rs` in order into `s`, one `LoadStep` per record. */
  function LoadAll(s: Indexed, rs: seq<Articulo>): (r: Indexed)
    requires ConsistentState(s)
    ensures ConsistentState(r)
    ensures r.tabla == s.tabla + RecordsMap(rs)
  {
    if rs == [] then s
    else
      var prefix := LoadAll(s, rs[..|rs| - 1]);
      var x := rs[|rs| - 1];
      MergeThenSet(s.tabla, RecordsMap(rs[..|rs| - 1]), x.hashId, x);
      LoadStep(prefix, x)
  }

  /** Every entry of `RecordsMap(rs)` is a record of `rs` stored under its own digest, and every record's digest is a key. */
  lemma {:induction false} RecordsMapSpec(rs: seq<Articulo>)
    ensures forall d :: d in RecordsMap(rs) ==> RecordsMap(rs)[d] in rs && RecordsMap(rs)[d].hashId == d
    ensures forall x :: x in rs ==> x.hashId in RecordsMap(rs)
  {
    if rs != [] {
      var n := |rs| - 1;
      RecordsMapSpec(rs[..n]);
      assert rs == rs[..n] + [rs[n]];
    }
  }

  /**
   * A list holding every record of a digest-keyed table once, and nothing else,
   * loads back into exactly that table.
   */
  lemma RecordsMapOfListing(c: map<string, Articulo>, vs: seq<Articulo>)
    requires Keyed(c)
    requires forall x :: multiset(vs)[x] == if Live(c, x) then 1 else 0
    ensures RecordsMap(vs) == c
  {
    RecordsMapSpec(vs);
    var r := RecordsMap(vs);
    forall d | d in c ensures d in r && r[d] == c[d] {
      assert multiset(vs)[c[d]] == 1;
      assert c[d] in vs;
      assert multiset(vs)[r[d]] == 1;
    }
    forall d | d in r ensures d in c {
      assert multiset(vs)[r[d]] == 1;
    }
  }
}

=== FILE: sorting.dfy ===
/**
 * Python's `sorted(xs, key=k)` where the key is a string: a stable sort in
 * non-decreasing order of the key under Python's string `<=`.
 */
module Sorting {
  import opened Text

  /** Every element's key is `<=` the key of every later element. */
  ghost predicate SortedBy<T>(s: seq<T>, key: T -> string)
  {
    forall i, j :: 0 <= i < j < |s| ==> LexLe(key(s[i]), key(s[j]))
  }

  /**
   * Puts `x` in front of the first element whose key is not smaller than its own;
   * `x` stands before the elements of `s` in the input, so ties keep their order.
   */
  function Insert<T>(x: T, s: seq<T>, key: T -> string): (r: seq<T>)
    requires SortedBy(s, key)
    ensures SortedBy(r, key)
    ensures multiset(r) == multiset(s) + multiset{x}
  {
    if s == [] || LexLe(key(x), key(s[0])) then
      InsertAtFrontSorted(x, s, key);
      [x] + s
    else
      var rest := Insert(x, s[1..], key);
      assert s == [s[0]] + s[1..];
      LexLeTotal(key(x), key(s[0]));
      ConsSorted(s[0], s[1..], x, rest, key);
      [s[0]] + rest
  }

  /**
   * Putting `h` in front of `rest` keeps it sorted when `rest` holds `x` and the
   * elements of `t`, and `h` is a key-minimum of `t` that is not above `x`.
   */
  lemma ConsSorted<T>(h: T, t: seq<T>, x: T, rest: seq<T>, key: T -> string)
    requires SortedBy([h] + t, key)
    requires LexLe(key(h), key(x))
    requires SortedBy(rest, key)
    requires multiset(rest) == multiset(t) + multiset{x}
    ensures SortedBy([h] + rest, key)
  {
    forall k | 0 <= k < |rest| ensures LexLe(key(h), key(rest[k])) {
      assert rest[k] in multiset(rest);
      if rest[k] != x {
        assert rest[k] in multiset(t);
        var j :| 0 <= j < |t| && t[j] == rest[k];
        assert ([h] + t)[0] == h && ([h] + t)[j + 1] == t[j];
      }
    }
    forall i, j | 0 <= i < j < |[h] + rest| ensures LexLe(key(([h] + rest)[i]), key(([h] + rest)[j])) {
      if i > 0 {
        assert ([h] + rest)[i] == rest[i - 1] && ([h] + rest)[j] == rest[j - 1];
      }
    }
  }

  lemma InsertAtFrontSorted<T>(x: T, s: seq<T>, key: T -> string)
    requires SortedBy(s, key)
    requires s == [] || LexLe(key(x), key(s[0]))
    ensures SortedBy([x] + s, key)
  {
    forall j | 0 <= j < |s| ensures LexLe(key(x), key(s[j])) {
      if j > 0 {
        LexLeTransitive(key(x), key(s[0]), key(s[j]));
      }
    }
  }

  /** `sorted(s, key=key)`: insertion sort from the back, which is stable. */
  function SortBy<T>(s: seq<T>, key: T -> string): (r: seq<T>)
    ensures SortedBy(r, key)
    ensures multiset(r) == multiset(s)
  {
    if s == [] then []
    else
      assert s == [s[0]] + s[1..];
      Insert(s[0], SortBy(s[1..], key), key)
  }
}

=== FILE: text.dfy ===
/**
 * The operations on Python `str` values that the record store relies on:
 * `strip()`, `split(sep)`, `lower()`, the `<=` order used by `sorted`,
 * `str(n)` on integers, `int(s)` on base-10 text, and the universal-newline
 * translation applied when a text file is read line by line, and `encode('utf-8')`.
 */
module Text {
  import opened Wrappers

  /** Python's `str.isspace()` on one character. */
  predicate IsSpace(c: char)
  {
    || c == ' '
    || ('\U{9}' <= c <= '\U{D}')
    || ('\U{1C}' <= c <= '\U{1F}')
    || c == '\U{85}' || c == '\U{A0}' || c == '\U{1680}'
    || ('\U{2000}' <= c <= '\U{200A}')
    || c == '\U{2028}' || c == '\U{2029}' || c == '\U{202F}' || c == '\U{205F}' || c == '\U{3000}'
  }

  // ---------------------------------------------------------------- strip

  /** `s.lstrip()`: the suffix of `s` left after dropping leading whitespace. */
  function StripLeft(s: string): (r: string)
    ensures |r| <= |s| && r == s[|s| - |r|..]
    ensures r == [] || !IsSpace(r[0])
    ensures forall i :: 0 <= i < |s| - |r| ==> IsSpace(s[i])
  {
    if |s| > 0 && IsSpace(s[0]) then StripLeft(s[1..]) else s
  }

  /** `s.rstrip()`: the prefix of `s` left after dropping trailing whitespace. */
  function StripRight(s: string): (r: string)
    ensures |r| <= |s| && r == s[..|r|]
    ensures r == [] || !IsSpace(r[|r| - 1])
    ensures forall i :: |r| <= i < |s| ==> IsSpace(s[i])
  {
    if |s| > 0 && IsSpace(s[|s| - 1]) then StripRight(s[..|s| - 1]) else s
  }

  /** `s.strip()`. */
  function Strip(s: string): (r: string)
    ensures r == [] || (!IsSpace(r[0]) && !IsSpace(r[|r| - 1]))
  {
    StripRight(StripLeft(s))
  }

  /** A string that neither starts nor ends with whitespace is its own `strip()`. */
  lemma StripUnchanged(s: string)
    requires s == [] || (!IsSpace(s[0]) && !IsSpace(s[|s| - 1]))
    ensures Strip(s) == s
  {
  }

  /** `lstrip` and `rstrip` only drop whitespace: they keep every other occurrence of `c` and add none. */
  lemma StripKeeps(s: string, c: char)
    ensures c in StripLeft(s) ==> c in s
    ensures c in StripRight(s) ==> c in s
    ensures !IsSpace(c) && c in s ==> c in StripLeft(s) && c in StripRight(s)
  {
    var l := StripLeft(s);
    var r := StripRight(s);
    if !IsSpace(c) && c in s {
      var i :| 0 <= i < |s| && s[i] == c;
      assert s[i] == l[i - (|s| - |l|)];
      assert s[i] == r[i];
    }
  }

  /** Leading whitespace stops at the first non-space character, so text after it is untouched by `lstrip`. */
  lemma {:induction false} StripLeftBefore(x: string, y: string)
    requires y != [] && !IsSpace(y[0])
    ensures StripLeft(x + y) == StripLeft(x) + y
  {
    if x == [] {
      assert x + y == y;
    } else if IsSpace(x[0]) {
      assert (x + y)[1..] == x[1..] + y;
      StripLeftBefore(x[1..], y);
    }
  }

  /** Trailing whitespace stops at the last non-space character, so text before it is untouched by `rstrip`. */
  lemma {:induction false} StripRightAfter(x: string, y: string)
    requires x != [] && !IsSpace(x[|x| - 1])
    ensures StripRight(x + y) == x + StripRight(y)
  {
    if y == [] {
      assert x + y == x;
    } else if IsSpace(y[|y| - 1]) {
      assert (x + y)[..|x + y| - 1] == x + y[..|y| - 1];
      StripRightAfter(x, y[..|y| - 1]);
    }
  }

  /** `strip()` of a text whose middle starts and ends with non-space characters only trims the outer parts. */
  lemma StripAround(h: string, mid: string, f: string)
    requires mid != [] && !IsSpace(mid[0]) && !IsSpace(mid[|mid| - 1])
    ensures Strip(h + mid + f) == StripLeft(h) + mid + StripRight(f)
  {
    assert h + mid + f == h + (mid + f);
    StripLeftBefore(h, mid + f);
    var front := StripLeft(h) + mid;
    assert StripLeft(h) + (mid + f) == front + f;
    assert front[|front| - 1] == mid[|mid| - 1];
    StripRightAfter(front, f);
  }

  // ---------------------------------------------------------------- split and join

  /** `s.split(sep)`: the pieces between the occurrences of `sep`, at least one. */
  function Split(s: string, sep: char): (parts: seq<string>)
    ensures |parts| >= 1
    ensures forall i :: 0 <= i < |parts| ==> sep !in parts[i]
  {
    if s == [] then [[]]
    else
      var rest := Split(s[1..], sep);
      if s[0] == sep then [[]] + rest
      else [[s[0]] + rest[0]] + rest[1..]
  }

  /** `sep.join(parts)`. */
  function Join(parts: seq<string>, sep: char): string
    requires |parts| >= 1
  {
    if |parts| == 1 then parts[0] else parts[0] + [sep] + Join(parts[1..], sep)
  }

  /** How many times `c` occurs in `s`. */
  function CountChar(s: string, c: char): (n: nat)
    ensures n == 0 <==> c !in s
  {
    if s == [] then 0 else (if s[0] == c then 1 else 0) + CountChar(s[1..], c)
  }

  lemma {:induction false} CountCharAppend(a: string, b: string, c: char)
    ensures CountChar(a + b, c) == CountChar(a, c) + CountChar(b, c)
  {
    if a != [] {
      assert (a + b)[0] == a[0] && (a + b)[1..] == a[1..] + b;
      CountCharAppend(a[1..], b, c);
    } else {
      assert a + b == b;
    }
  }

  /** `s.split(sep)` has one more piece than `s` has separators. */
  lemma {:induction false} SplitLength(s: string, sep: char)
    ensures |Split(s, sep)| == CountChar(s, sep) + 1
  {
    if s != [] {
      SplitLength(s[1..], sep);
    }
  }

  /** The separators in the pieces, added up. */
  function CountInAll(parts: seq<string>, c: char): nat
  {
    if parts == [] then 0 else CountChar(parts[0], c) + CountInAll(parts[1..], c)
  }

  /** A join holds one separator between each two pieces, besides those inside the pieces. */
  lemma {:induction false} JoinSeparators(parts: seq<string>, sep: char)
    requires |parts| >= 1
    ensures CountChar(Join(parts, sep), sep) == |parts| - 1 + CountInAll(parts, sep)
  {
    if |parts| > 1 {
      JoinSeparators(parts[1..], sep);
      CountCharAppend(parts[0], [sep], sep);
      CountCharAppend(parts[0] + [sep], Join(parts[1..], sep), sep);
    } else {
      assert parts[1..] == [];
    }
  }

  /** Text free of `sep` glued in front of `b` joins the first piece of `b`. */
  lemma {:induction false} SplitPrefix(a: string, b: string, sep: char)
    requires sep !in a
    ensures Split(a + b, sep) == [a + Split(b, sep)[0]] + Split(b, sep)[1..]
  {
    if a != [] {
      var s := a + b;
      assert s[0] == a[0] && s[1..] == a[1..] + b;
      SplitPrefix(a[1..], b, sep);
      var rest := Split(s[1..], sep);
      assert rest == [a[1..] + Split(b, sep)[0]] + Split(b, sep)[1..];
      assert Split(s, sep) == [[a[0]] + rest[0]] + rest[1..];
      assert [a[0]] + (a[1..] + Split(b, sep)[0]) == a + Split(b, sep)[0];
    } else {
      var pieces := Split(b, sep);
      assert a + b == b;
      assert [] + pieces[0] == pieces[0];
      assert pieces == [pieces[0]] + pieces[1..];
    }
  }

  /** Splitting a joined sequence of separator-free pieces gives the pieces back. */
  lemma {:induction false} SplitJoin(parts: seq<string>, sep: char)
    requires |parts| >= 1
    requires forall i :: 0 <= i < |parts| ==> sep !in parts[i]
    ensures Split(Join(parts, sep), sep) == parts
  {
    if |parts| == 1 {
      SplitPrefix(parts[0], [], sep);
      assert parts[0] + [] == parts[0];
      assert Split([], sep) == [[]];
      assert parts == [parts[0] + []];
    } else {
      var tail := Join(parts[1..], sep);
      SplitJoin(parts[1..], sep);
      var rest := [sep] + tail;
      assert rest[0] == sep && rest[1..] == tail;
      assert Split(rest, sep) == [[]] + parts[1..];
      assert Join(parts, sep) == parts[0] + rest;
      SplitPrefix(parts[0], rest, sep);
      assert parts[0] + [] == parts[0];
      assert parts == [parts[0]] + parts[1..];
    }
  }

  /** Joining the pieces of a split with the same separator restores the text. */
  lemma {:induction false} JoinSplit(s: string, sep: char)
    ensures Join(Split(s, sep), sep) == s
  {
    if s != [] {
      var rest := Split(s[1..], sep);
      JoinSplit(s[1..], sep);
      if s[0] == sep {
        assert Split(s, sep)[1..] == rest;
      } else {
        var parts := Split(s, sep);
        if |rest| == 1 {
          assert parts == [[s[0]] + rest[0]];
        } else {
          assert parts[1..] == rest[1..];
          assert Join(rest, sep) == rest[0] + [sep] + Join(rest[1..], sep);
        }
      }
    }
  }

  // ---------------------------------------------------------------- lower

  /** `c.lower()` restricted to ASCII letters. */
  function LowerChar(c: char): char
  {
    if 'A' <= c <= 'Z' then (c as int + 32) as char else c
  }

  /** `s.lower()` restricted to ASCII letters: no capital is left, and every other character is kept. */
  function Lower(s: string): (r: string)
    ensures |r| == |s|
    ensures forall i :: 0 <= i < |r| ==> !('A' <= r[i] <= 'Z')
    ensures forall i :: 0 <= i < |s| && !('A' <= s[i] <= 'Z') ==> r[i] == s[i]
  {
    seq(|s|, i requires 0 <= i < |s| => LowerChar(s[i]))
  }

  /** Lower-casing is idempotent: a lower-cased author key looks itself up. */
  lemma LowerIdempotent(s: string)
    ensures Lower(Lower(s)) == Lower(s)
  {
  }

  // ---------------------------------------------------------------- order

  /** Python's `a <= b` on strings: code points compared left to right, a proper prefix first. */
  predicate LexLe(a: string, b: string)
  {
    a == [] || (b != [] && (a[0] < b[0] || (a[0] == b[0] && LexLe(a[1..], b[1..]))))
  }

  lemma {:induction false} LexLeTotal(a: string, b: string)
    ensures LexLe(a, b) || LexLe(b, a)
  {
    if a != [] && b != [] && a[0] == b[0] {
      LexLeTotal(a[1..], b[1..]);
    }
  }

  lemma {:induction false} LexLeTransitive(a: string, b: string, c: string)
    requires LexLe(a, b) && LexLe(b, c)
    ensures LexLe(a, c)
  {
    if a != [] && b != [] && c != [] && a[0] == b[0] && b[0] == c[0] {
      LexLeTransitive(a[1..], b[1..], c[1..]);
    }
  }

  lemma {:induction false} LexLeAntisymmetric(a: string, b: string)
    requires LexLe(a, b) && LexLe(b, a)
    ensures a == b
  {
    if a != [] && b != [] {
      LexLeAntisymmetric(a[1..], b[1..]);
      assert a == [a[0]] + a[1..] && b == [b[0]] + b[1..];
    }
  }

  // ---------------------------------------------------------------- numbers

  predicate IsDigit(c: char)
  {
    '0' <= c <= '9'
  }

  predicate AllDigits(s: string)
  {
    forall i :: 0 <= i < |s| ==> IsDigit(s[i])
  }

  function DigitChar(d: nat): char
    requires d < 10
  {
    ('0' as int + d) as char
  }

  /** `str(n)` for a natural number: its decimal digits, most significant first. */
  function NatToDecimal(n: nat): (s: string)
    ensures |s| >= 1 && AllDigits(s)
  {
    if n < 10 then [DigitChar(n)] else NatToDecimal(n / 10) + [DigitChar(n % 10)]
  }

  /** The number a string of decimal digits denotes. */
  function DecimalValue(s: string): nat
    requires AllDigits(s)
  {
    if s == [] then 0 else DecimalValue(s[..|s| - 1]) * 10 + (s[|s| - 1] as int - '0' as int)
  }

  lemma {:induction false} DecimalRoundTrip(n: nat)
    ensures DecimalValue(NatToDecimal(n)) == n
  {
    if n >= 10 {
      var s := NatToDecimal(n);
      assert s[..|s| - 1] == NatToDecimal(n / 10);
      DecimalRoundTrip(n / 10);
    }
  }

  /** Distinct numbers have distinct decimal renderings. */
  lemma NatToDecimalInjective(m: nat, n: nat)
    requires NatToDecimal(m) == NatToDecimal(n)
    ensures m == n
  {
    DecimalRoundTrip(m);
    DecimalRoundTrip(n);
  }

  /** `str(n)` for any integer: a minus sign for negatives, then the decimal digits. */
  function IntToString(n: int): (s: string)
    ensures |s| >= 1 && forall i :: 0 <= i < |s| ==> IsDigit(s[i]) || (i == 0 && s[i] == '-')
  {
    if n < 0 then "-" + NatToDecimal(-n) else NatToDecimal(n)
  }

  /** The digit text `int()` accepts in base 10: ASCII digits, single underscores only between digits. */
  predicate IsDigitText(s: string)
  {
    && |s| > 0 && IsDigit(s[0]) && IsDigit(s[|s| - 1])
    && (forall i :: 0 <= i < |s| ==> IsDigit(s[i]) || s[i] == '_')
    && (forall i :: 0 <= i < |s| - 1 ==> s[i] == '_' ==> s[i + 1] != '_')
  }

  /** The digits of a digit text, underscores dropped. */
  function DropUnderscores(s: string): (r: string)
    requires forall i :: 0 <= i < |s| ==> IsDigit(s[i]) || s[i] == '_'
    ensures AllDigits(r)
    ensures '_' !in s ==> r == s
  {
    if s == [] then [] else (if s[0] == '_' then [] else [s[0]]) + DropUnderscores(s[1..])
  }

  /** An optional sign followed by digit text, as `int` accepts once surrounding whitespace is gone. */
  predicate Numeral(t: string)
  {
    IsDigitText(t) || (|t| > 0 && (t[0] == '+' || t[0] == '-') && IsDigitText(t[1..]))
  }

  /**
   * `int(s)` in base 10; None where Python raises ValueError. It succeeds exactly on
   * a numeral between whitespace, and the value is negative only after a minus sign.
   */
  function ParseInt(s: string): (r: Option<int>)
    ensures r.Some? <==> Numeral(Strip(s))
    ensures r.Some? && r.value < 0 ==> Strip(s)[0] == '-'
  {
    ParseNumeral(Strip(s))
  }

  /** `int` on text already stripped: an optional sign, then digit text. */
  function ParseNumeral(t: string): Option<int>
  {
    if |t| > 0 && (t[0] == '+' || t[0] == '-') then
      if IsDigitText(t[1..]) then
        var v: int := DecimalValue(DropUnderscores(t[1..]));
        Some(if t[0] == '-' then -v else v)
      else None
    else if IsDigitText(t) then Some(DecimalValue(DropUnderscores(t)))
    else None
  }

  /** `int(str(n)) == n`. */
  lemma ParseIntRoundTrip(n: int)
    ensures ParseInt(IntToString(n)) == Some(n)
  {
    var s := IntToString(n);
    assert n < 0 ==> s == "-" + NatToDecimal(-n);
    assert !IsSpace(s[0]) && !IsSpace(s[|s| - 1]);
    StripUnchanged(s);
    NumeralRoundTrip(n);
  }

  /** `str(n)` read back by the sign-and-digits rule gives `n`. */
  lemma NumeralRoundTrip(n: int)
    ensures ParseNumeral(IntToString(n)) == Some(n)
  {
    var s := IntToString(n);
    var m: nat := if n < 0 then -n else n;
    DecimalDigitText(m);
    if n < 0 {
      assert s[1..] == NatToDecimal(m);
      assert s[0] == '-';
    } else {
      assert s == NatToDecimal(m);
      assert s[0] != '+' && s[0] != '-';
    }
  }

  /** A decimal rendering is digit text, and it reads back as the number. */
  lemma DecimalDigitText(n: nat)
    ensures IsDigitText(NatToDecimal(n))
    ensures DecimalValue(DropUnderscores(NatToDecimal(n))) == n
  {
    var digits := NatToDecimal(n);
    assert '_' !in digits by {
      forall i | 0 <= i < |digits| ensures digits[i] != '_' { assert IsDigit(digits[i]); }
    }
    DecimalRoundTrip(n);
  }

  // ---------------------------------------------------------------- lines

  /** Universal-newline translation on reading: "\r\n" and a lone "\r" both become "\n". */
  function NormalizeNewlines(s: string): (r: string)
    ensures '\r' !in r
    ensures '\r' !in s ==> r == s
  {
    if s == [] then []
    else if s[0] == '\r' then
      if |s| > 1 && s[1] == '\n' then "\n" + NormalizeNewlines(s[2..])
      else "\n" + NormalizeNewlines(s[1..])
    else [s[0]] + NormalizeNewlines(s[1..])
  }

  /**
   * The lines a `for line in file` loop sees, without their terminators. A text
   * that ends in a line break gives one more, empty, piece than Python yields;
   * every consumer skips blank lines, so the extra piece changes nothing.
   */
  function Lines(text: string): seq<string>
  {
    Split(NormalizeNewlines(text), '\n')
  }

  // ---------------------------------------------------------------- encode

  type byte = x: int | 0 <= x < 256

  /** Whether `b` is a UTF-8 continuation byte, 10xxxxxx. */
  predicate IsContinuation(b: byte)
  {
    0x80 <= b < 0xC0
  }

  /** The two-byte form 110xxxxx 10xxxxxx. */
  function Utf8Two(n: int): (bs: seq<byte>)
    requires 0x80 <= n < 0x800
    ensures |bs| == 2 && 0xC0 <= bs[0] < 0xE0 && IsContinuation(bs[1])
    ensures (bs[0] as int - 0xC0) * 0x40 + (bs[1] as int - 0x80) == n
  {
    var low, high := n % 0x40, n / 0x40;
    assert high < 0x20;
    [0xC0 + high, 0x80 + low]
  }

  /** The three-byte form 1110xxxx 10xxxxxx 10xxxxxx. */
  function Utf8Three(n: int): (bs: seq<byte>)
    requires 0x800 <= n < 0x1_0000
    ensures |bs| == 3 && 0xE0 <= bs[0] < 0xF0 && IsContinuation(bs[1]) && IsContinuation(bs[2])
    ensures ((bs[0] as int - 0xE0) * 0x40 + (bs[1] as int - 0x80)) * 0x40 + (bs[2] as int - 0x80) == n
  {
    var low, n1 := n % 0x40, n / 0x40;
    var mid, high := n1 % 0x40, n1 / 0x40;
    assert n1 < 0x400 && high < 0x10;
    [0xE0 + high, 0x80 + mid, 0x80 + low]
  }

  /** The four-byte form 11110xxx 10xxxxxx 10xxxxxx 10xxxxxx. */
  function Utf8Four(n: int): (bs: seq<byte>)
    requires 0x1_0000 <= n < 0x11_0000
    ensures |bs| == 4 && 0xF0 <= bs[0] < 0xF8
    ensures IsContinuation(bs[1]) && IsContinuation(bs[2]) && IsContinuation(bs[3])
    ensures (((bs[0] as int - 0xF0) * 0x40 + (bs[1] as int - 0x80)) * 0x40 + (bs[2] as int - 0x80)) * 0x40 + (bs[3] as int - 0x80) == n
  {
    var b3, n1 := n % 0x40, n / 0x40;
    var b2, n2 := n1 % 0x40, n1 / 0x40;
    var b1, b0 := n2 % 0x40, n2 / 0x40;
    assert n1 < 0x4400 && n2 < 0x110 && b0 < 5;
    [0xF0 + b0, 0x80 + b1, 0x80 + b2, 0x80 + b3]
  }

  /**
   * `c.encode('utf-8')`: one byte below U+0080, two below U+0800, three below
   * U+10000, four above; the lead byte announces the length.
   */
  function Utf8Char(c: char): (bs: seq<byte>)
    ensures 1 <= |bs| <= 4
    ensures |bs| == 1 <==> c as int < 0x80
    ensures |bs| == 1 ==> bs[0] == c as int
  {
    var n := c as int;
    if n < 0x80 then [n]
    else if n < 0x800 then Utf8Two(n)
    else if n < 0x1_0000 then Utf8Three(n)
    else Utf8Four(n)
  }

  /** `s.encode('utf-8')`: the encodings of the characters, in order. */
  function Utf8(s: string): (bs: seq<byte>)
    ensures |s| <= |bs| <= 4 * |s|
  {
    if s == [] then [] else Utf8(s[..|s| - 1]) + Utf8Char(s[|s| - 1])
  }
}

=== FILE: wrappers.dfy ===
/** The optional-value datatype used for lookups and parses that may find nothing. */
module Wrappers {

  datatype Option<+T> = None | Some(value: T)

  /** The value of `m` at `k`, or None when `k` is not a key of `m`. */
  function MapGet<K, V>(m: map<K, V>, k: K): Option<V>
  {
    if k in m then Some(m[k]) else None
  }
}
